=== FILE: README.md ===
# Cart and order state transitions of a food-ordering client

A Dafny model of the cart and order logic of a React Native food-ordering app.
It covers:

- the Redux cart slice and its thunks;
- the React cart and order contexts, which are what the screens actually use;
- the checkout sequence;
- the small pure helpers inside the screens.

Every network call is replaced by an explicit reply parameter:

- `Outcome<T> = Success(payload) | Refused | Exception`, where `Refused` is a
  body with `success: false`;
- `FoodsReply = Body(payload) | Threw` for the food endpoints, which have no
  success flag.

Each handler is a pure function from the current state, its inputs and the
replies to the new state and the requests it sent (`Step<S>`). Each Redux
thunk is modelled as the actions it dispatches plus the requests it sends
(`CartActions.Dispatched`). The resulting store state is `CartReducer.Run`,
the reducer folded over those actions.

The two cart implementations are modelled as written, and they disagree:

- The thunks apply a change only after the server confirms it. After a
  confirmed add they reload the cart from the server.
- The context applies a quantity change optimistically and reloads if the
  server refuses it. After a confirmed add it appends a line built locally,
  even when a line for the same food already exists.
- The reducer merges an add into an existing line with the same food id.
- `CartComparison` states where the implementations agree and where they
  differ.

Conventions:

- Ids of carts, foods, users and orders are `int`, and 0 stands for a missing
  (falsy) id. The delivery screen's order ids are strings, as in its sample data.
- Tokens and texts are `string`, and "" stands for null or empty. Most of
  them are only tested for truthiness, and there the merge is harmless.
  There are two exceptions:
  - A food's description has its `length` read, so null and "" differ (see
    `HomePage.DescriptionToShow` under "## Left out").
  - The cart context interpolates `user.token` into its delete and update
    headers without checking it, so a null token gives "Bearer null" (see
    `CartContext.RemoveCartItem` and `CartContext.UpdateQuantity` under
    "## Left out").
- The `userId` the checkout reads from storage is a string there. The model
  holds it as an `int` with 0 for missing, so a stored "0" (truthy in the code)
  has no separate value.
- Prices and quantities are integers.

Modules:

- `Common` and `Seqs`: Option/Outcome, and filter/find-first over sequences.
- `Domain`: records, requests and the server-cart conversion.
- `CartReducer`, `CartActions`, `CartContext`, `OrderContext`: one module each
  for the Redux slice, the thunks and the two contexts.
- One module per screen: `CheckoutScreen`, `CartScreen`, `DeliveryOrders`,
  `OrdersScreen`, `FoodDetail`, `HomePage`.
- `CartComparison`: lemmas relating the two cart implementations.

## Model

| member | source | states |
|---|---|---|
| Domain.FormatCart | src/reducers/cartActions.js:24-30 | a fetched cart entry becomes a line whose `foodId` is the food's id, and the conversion loses nothing (it can be read back to the entry) |
| Domain.FormatCarts | src/reducers/cartActions.js:24-30 | the converted cart has the payload's length, and line i reads back to entry i (order kept) |
| Domain.FormatCartsConcat | src/context/CartContext.js:38-44 | converting a concatenated payload is concatenating the conversions |
| Domain.WithoutCart | src/reducers/cartReducer.js:55-59 | the result holds exactly the lines whose cart id differs, and is unchanged when no line has the id |
| Domain.WithoutCartConcat | src/reducers/cartReducer.js:55-59 | removal keeps the relative order of the surviving lines |
| Domain.WithoutCartIdempotent | src/reducers/cartReducer.js:55-59 | removing a cart id twice is removing it once |
| CartReducer.SetUserId | src/reducers/cartReducer.js:16-18 | only `userId` changes |
| CartReducer.SetToken | src/reducers/cartReducer.js:19-21 | only `token` changes |
| CartReducer.SetCartItems | src/reducers/cartReducer.js:22-24 | the cart is replaced wholesale by the payload; the other fields are unchanged |
| CartReducer.SetLoading | src/reducers/cartReducer.js:25-27 | only `loading` changes |
| CartReducer.AddToCart | src/reducers/cartReducer.js:28-40 | for a food id already present, the first such line gains `quantity` and every other line and the length stay the same; otherwise exactly one line with that food and quantity is appended after the unchanged lines |
| CartReducer.UpdateQuantity | src/reducers/cartReducer.js:41-54 | an unknown cart id leaves the state unchanged; a quantity of zero or less on a present id equals `RemoveCartItem`; a positive quantity sets only the first matching line and leaves length and every other line unchanged |
| CartReducer.RemoveCartItem | src/reducers/cartReducer.js:55-59 | no line with the id remains, every other line remains, and the other fields are unchanged |
| CartReducer.RemoveCartItemIdempotent | src/reducers/cartReducer.js:55-59 | removal is idempotent |
| CartReducer.RemoveCartItemKeepsOrder | src/reducers/cartReducer.js:55-59 | removal acts on a split cart piece by piece, so the relative order is preserved |
| CartReducer.RunConcat | src/reducers/cartActions.js:11-40 | dispatching two batches of actions in turn is dispatching their concatenation |
| CartReducer.Reduce | src/reducers/cartReducer.js:11-72 | the slice reducer: only `setUserId`, `setToken` and `setLoading` change user id, token and loading, each to its payload; `setCartItems` replaces the cart with its payload; the three setters leave the cart alone |
| CartActions.AuthHeader | src/reducers/cartActions.js:19-20 | the header is empty exactly when the token is absent, and otherwise carries the token after "Bearer " |
| CartActions.AuthHeaderRoundTrip | src/reducers/cartActions.js:19-20 | the token can be read back from the header for every token |
| CartActions.LoadCartItems | src/reducers/cartActions.js:11-40 | one fetch; the first action sets loading on and the last sets it off. In between there is exactly one cart replacement after a reply and none after a throw. Success sets the cart to the converted payload; `success: false` empties it; an exception leaves it unchanged. User id and token are untouched |
| CartActions.AddToCartAsync | src/reducers/cartActions.js:43-71 | a missing food, a missing food id or a quantity of zero or less dispatches nothing and sends nothing. Otherwise one add request; on success exactly the reload's actions are dispatched, so the cart is the server's (emptied on a refused reload, kept on a throw) and no add action is ever dispatched; on failure nothing is dispatched |
| CartActions.RemoveCartItemAsync | src/reducers/cartActions.js:105-125 | one delete request; the line is removed locally only on success; otherwise the state is unchanged |
| CartActions.UpdateQuantityAsync | src/reducers/cartActions.js:74-102 | a quantity of zero or less is exactly `RemoveCartItemAsync` and sends no update request. Otherwise one update request; the reducer update is applied only on success; a failure leaves the state unchanged |
| CartContext.LoadCartItems | src/context/CartContext.js:16-59 | no user or no token empties the cart without a request. Otherwise one bearer fetch: success gives the converted payload; `success: false` or an exception empties the cart. Loading ends off on every path |
| CartContext.LoadForgetsPrevious | src/context/CartContext.js:36-55 | a reload carries nothing over from the cart it replaces |
| CartContext.OnUserChange | src/context/CartContext.js:208-211 | on a user change the cart is reloaded as if from empty; signing out empties it without a request |
| CartContext.NewLine | src/context/CartContext.js:97-103 | the built line has the food, its id and the quantity; its cart id is the server's when the server sent one, else the fallback; its added time is the current time |
| CartContext.AddToCart | src/context/CartContext.js:62-112 | no user or token, a missing food or id, or a quantity of zero or less sends nothing and changes nothing. Otherwise one add request; success appends exactly one new line after the unchanged existing lines, with no merge; failure changes nothing |
| CartContext.SetQuantity | src/context/CartContext.js:123-127 | the optimistic update: every line with the id takes the new quantity, every other line is unchanged, and the length is kept |
| CartContext.RemoveCartItem | src/context/CartContext.js:156-205 | no cart id or no user id sends nothing and changes nothing. Otherwise one delete request; the line is filtered out only on success; otherwise the cart is unchanged |
| CartContext.UpdateQuantity | src/context/CartContext.js:115-153 | a quantity of zero or less is exactly `RemoveCartItem`. Otherwise the update request is sent; success keeps the optimistic cart and sends nothing more; a refusal or exception leaves the cart as a fresh reload gives it, and the reload's fetch follows only for a user with a token. With no user, nothing is sent and the cart ends empty |
| OrderContext.FetchOrders | src/context/OrderContext.js:13-50 | no user or no stored token empties the list without a request. Otherwise one bearer fetch: success replaces the list wholesale with the server's orders; `success: false` or an exception empties it. Loading ends off on every path |
| OrderContext.FetchOrdersForgetsPrevious | src/context/OrderContext.js:37-47 | a refresh keeps nothing of the list it replaces |
| OrderContext.RefreshOrders | src/context/OrderContext.js:53-55 | a refresh behaves exactly as a fetch |
| OrderContext.AddOrder | src/context/OrderContext.js:58-60 | exactly one order is appended after the unchanged earlier orders |
| OrderContext.OnUserChange | src/context/OrderContext.js:63-65 | on a user change the list is refetched as if from empty; signing out empties it |
| CheckoutScreen.HandleCardInput | src/screens/CheckoutScreen.js:29-31 | the edited field reads back the new value; every other field keeps its value |
| CheckoutScreen.PayForOrder | src/screens/CheckoutScreen.js:33-88 | without the stored token or user id: no request, no refresh, navigate to Profile. Otherwise the order request carries the route's `priceToPay` and the card as typed. On refusal, exception or an unpressed OK, nothing else happens. After OK on success, the requests are the order request, then the refresh's, then the reload's (for a signed-in user with a token: order, orders fetch, cart fetch); no cart fetch precedes an order fetch; the screen moves to Orders |
| CartScreen.TotalConcat | src/screens/CartScreen.js:23-28 | the total is additive over concatenation of line lists |
| CartScreen.TotalUpdate | src/screens/CartScreen.js:23-28 | replacing one line changes the total by the difference of the two lines' price × quantity |
| CartScreen.TotalBasics | src/screens/CartScreen.js:23-28 | an empty cart totals 0; a single line totals price × quantity |
| CartScreen.CalculateTotalPrice | src/screens/CartScreen.js:23-28 | the screen's left-to-right reduce equals the sum of price × quantity over all lines |
| CartScreen.RequestedQuantity | src/screens/CartScreen.js:73-86 | "+" asks for quantity + 1 and "−" asks for quantity − 1 |
| CartScreen.PressQuantityButton | src/screens/CartScreen.js:73-86 | a button press is the context's `updateQuantity` with the line's id; "−" at quantity 1 is exactly the removal path |
| CartScreen.CheckoutPriceToPay | src/screens/CartScreen.js:93-99 | the checkout button passes the current cart's total as `priceToPay` |
| CartScreen.CheckoutChargesCartTotal | src/screens/CartScreen.js:95-98 | paying with the passed price sends an order whose amount is the cart's total |
| DeliveryOrders.UpdateOrderStatus | src/screens/DeliveryOrdersScreen.js:27-33 | only the status of orders with the matching id changes; length, order and all other fields are unchanged |
| DeliveryOrders.ParseStatus | src/screens/DeliveryOrdersScreen.js:43-57 | reading a status string gives back that string, and yields Pending, Processing or Delivered exactly for those three strings |
| DeliveryOrders.ParseStatusText | src/screens/DeliveryOrdersScreen.js:43-57 | every status is read back from its string, so each status string has one status |
| DeliveryOrders.OfferedTransition | src/screens/DeliveryOrdersScreen.js:43-57 | a button is offered exactly for Pending and Processing, and it advances progress by exactly one step; Delivered offers none |
| DeliveryOrders.PressButton | src/screens/DeliveryOrdersScreen.js:43-57 | a card without a button changes nothing; with one, every order with the card's id takes the next status; no order changes anything but its status, and the length is kept |
| DeliveryOrders.ButtonOnlyAdvances | src/screens/DeliveryOrdersScreen.js:27-57 | with unique ids, a press advances only the pressed order, by one step, keeping its id, name and address; no status moves backwards |
| DeliveryOrders.ListsPartition | src/screens/DeliveryOrdersScreen.js:65-82 | the three lists together hold each Pending/Processing/Delivered order exactly once (as multisets) |
| DeliveryOrders.PendingList | src/screens/DeliveryOrdersScreen.js:66 | the pending list holds only pending orders and every pending order |
| DeliveryOrders.ProcessingList | src/screens/DeliveryOrdersScreen.js:73 | the in-progress list holds only processing orders and every processing order |
| DeliveryOrders.DeliveredList | src/screens/DeliveryOrdersScreen.js:80 | the completed list holds only delivered orders and every delivered order |
| DeliveryOrders.InitialOrdersUniqueIds | src/screens/DeliveryOrdersScreen.js:5-24 | the opening orders have distinct ids |
| DeliveryOrders.InitialPending | src/screens/DeliveryOrdersScreen.js:5-24 | the screen opens with exactly the first order pending |
| DeliveryOrders.InitialProcessing | src/screens/DeliveryOrdersScreen.js:5-24 | the screen opens with exactly the second order in progress |
| DeliveryOrders.InitialDelivered | src/screens/DeliveryOrdersScreen.js:5-24 | the screen opens with exactly the third order delivered |
| DeliveryOrders.ListsKeepOrder | src/screens/DeliveryOrdersScreen.js:65-82 | each list preserves the relative order of the orders |
| OrdersScreen.SortByTimeDesc | src/screens/OrdersScreen.js:58-61 | the sorted list is in descending `orderTime` order and is a permutation of the input |
| OrdersScreen.View | src/screens/OrdersScreen.js:42-61 | a spinner during the first load; a missing or empty list gives the empty view; otherwise cards are always shown, and they are exactly the orders sorted newest first (a permutation of the list) |
| OrdersScreen.OrderTotal | src/screens/OrdersScreen.js:63-68 | an order without food renders nothing; otherwise the total is price × quantity, with a missing quantity counted as 0 |
| OrdersScreen.OrderTotalIsCartTotal | src/screens/OrdersScreen.js:63-68 | a card's total is the cart screen's total of the one-line cart with that food and quantity |
| OrdersScreen.FormatDateFromEpoch | src/screens/OrdersScreen.js:21-25 | 'Unknown' exactly for a missing or zero epoch; otherwise the epoch is what is formatted |
| FoodDetail.CheckFoodId | src/screens/FoodDetailScreen.js:52-59 | a fetch happens exactly for a present, non-zero numeric id, and it fetches that id |
| FoodDetail.CardOpensItsFood | src/screens/HomePage.js:123 | a home-page food card with an id opens a detail screen that fetches that very food; one without an id is sent back |
| HomePage.CardRoute | src/screens/HomePage.js:123 | a food card passes its food's id as the detail screen's `foodId` |
| FoodDetail.AcceptFoodData | src/screens/FoodDetailScreen.js:30-43 | food is accepted exactly when `foods` is a non-empty array, and its first element is used |
| FoodDetail.AcceptedFoodIsListedFirst | src/screens/FoodDetailScreen.js:30-32 | a food the detail screen accepts is the first food the home page's normalisation yields for the same response |
| FoodDetail.HandleIncrease | src/screens/FoodDetailScreen.js:74-76 | gives q + 1; NaN stays NaN |
| FoodDetail.HandleDecrease | src/screens/FoodDetailScreen.js:78-83 | gives q − 1 when q > 1, otherwise 1; never below 1 |
| FoodDetail.StepperStaysPositive | src/screens/FoodDetailScreen.js:74-83 | from a positive quantity, no sequence of +/− presses takes the stepper below 1 |
| FoodDetail.StepperFromOpening | src/screens/FoodDetailScreen.js:18 | the stepper opens at 1, so no series of presses takes it below 1 |
| FoodDetail.AddToCartHandler | src/screens/FoodDetailScreen.js:61-72 | a NaN or non-positive quantity does not call `addToCart`; a valid one calls it exactly once with the parsed value |
| HomePage.DescriptionToShow | src/screens/HomePage.js:110-116 | input unchanged when its length ≤ `maxLength`; otherwise the first `maxLength` characters followed by "...", of length `maxLength + 3`; the result always starts with the input's first min(length, maxLength) characters |
| HomePage.ChooseEndpoint | src/screens/HomePage.js:64-79 | a non-empty query goes to search; otherwise a category goes to its endpoint; otherwise all foods |
| HomePage.NormalizeFoods | src/screens/HomePage.js:81-94 | an array is used as is; otherwise the `foods` field; otherwise empty; an exception also gives empty |
| HomePage.FetchFoodsStep | src/screens/HomePage.js:55-96 | one request to the chosen endpoint; the normalised response replaces the list; loading ends off; the filters are untouched |
| HomePage.Mount | src/screens/HomePage.js:23-31 | the first load fetches all foods and shows exactly the response's foods, with nothing selected or searched and loading off |
| HomePage.TypeSearch | src/screens/HomePage.js:156-161 | typing changes only the search box text |
| HomePage.SearchFoods | src/screens/HomePage.js:104-108 | a search clears the category, commits the typed text (keeping it in the box), searches with it, and shows exactly the response's foods with loading off |
| HomePage.HandleReset | src/screens/HomePage.js:139-147 | reset clears both texts and the category, fetches all foods, and shows exactly the response's foods with loading off |
| HomePage.HandleCategorySelect | src/screens/HomePage.js:97-102 | selecting a category selects it and clears the search text, keeping the box text. Its own request uses the previous search text. When the selection changed, the effect then requests the category and its response is shown; re-selecting the same category sends one request and shows its response. Loading ends off |
| HomePage.HandleCategorySelectFixed | src/screens/HomePage.js:97-102 | the intended selection: every request goes to the category endpoint. A changed selection sends the handler's and the effect's category requests and shows the effect's response; re-selecting sends one request and shows its response. The box text is kept and loading ends off |
| HomePage.HandlersKeepConsistent | src/screens/HomePage.js:97-108 | no handler leaves a category selected while a search is committed |
| HomePage.CategoryAfterSearchSendsStaleSearch | src/screens/HomePage.js:55-58 | after searching "pizza", selecting a category first sends a name search for "pizza" |
| CartComparison.QuantityUpdatesAgree | src/reducers/cartReducer.js:41-54 | with unique cart ids, the reducer's first-match update equals the context's update of every matching line |
| CartComparison.AddToCartDisagrees | src/reducers/cartReducer.js:28-40 | for a food already in the cart, the reducer keeps the length while the context adds a second line for the same food |
| CartComparison.LoadFailureDisagrees | src/reducers/cartActions.js:35-36 | when the cart fetch throws, the thunk keeps the cart while the context empties it |
| CartComparison.ReducerAddRaisesTotal | src/reducers/cartReducer.js:28-40 | the reducer's add, merged or appended, raises the total by price × quantity when the existing lines for the food carry its price |
| CartComparison.ContextAddRaisesTotal | src/context/CartContext.js:94-104 | the context's confirmed add raises the total by price × quantity |

## Left out

- Rendering, styles and navigation topology. Only the destination of the
  checkout navigation is modelled.
- Identity: login, registration, the user context and AsyncStorage are not
  part of this model. They enter only as inputs: the signed-in `Option<User>`,
  the stored `jwtToken`, and the stored `userId` that checkout reads. The
  login screen never writes that `userId` entry, so with that screen as it is
  the checkout guard would always stop. The model keeps the guard abstract.
- The store wiring, the order detail screen and the category fetch of the
  home page: wiring, display only, and a plain GET into a list.
- HTTP, `fetch`/axios, JSON parsing and status codes. These are the reply
  parameters. The context's delete treats a non-ok status by throwing, so it
  is modelled as `Exception`. A success body without its list field (which
  would throw on `.map`) is not represented.
- `Date.now()` ids and timestamps, `parseInt`/`isNaN` parsing and
  `toLocaleString`: taken as parameters, as `Option<int>`, and as the abstract
  `Localized(epoch)` respectively.
- Alerts, toasts and console output. `Alert` and `showError` are never
  imported by the cart context, so those paths throw; they are modelled as
  sending nothing and changing nothing.
- Concurrency: each handler is one atomic step. Un-awaited nested calls and an
  effect's fetch are applied in the order they were issued. No in-flight
  guard, double-submit guard or stale-response discard is modelled, because
  the code has none.
- CartContext.LoadCartItems: the intermediate `loading = true` is not stated,
  only that loading ends off. The Redux thunk's version states both ends over
  its dispatched actions.
- CartContext.RemoveCartItem: a signed-in user without a token is sent
  "Bearer null" in the code and "Bearer " here, because null and "" are one
  value in the model.
- CartContext.UpdateQuantity: the same "Bearer null" / "Bearer " difference as
  `RemoveCartItem`. `AddToCart` rejects a missing token before building a
  header, so it has none.
- OrdersScreen.SortByTimeDesc: stability among equal times is built in but not
  stated. The in-place mutation of the context's array by `sort` is not modelled.
- OrdersScreen.View: its cards are exactly `SortByTimeDesc` of the list, so
  they inherit that gap: equal-time orders keep their list order by
  construction, but no clause states it.
- OrdersScreen.OrderTotal: a food without a price cannot be written, because
  prices are plain integers. `(price || 0)` therefore has no separate case.
- DeliveryOrders.ButtonOnlyAdvances: stated for lists with unique ids, which
  the list keys assume. With duplicate ids, a press also rewrites the
  duplicates.
- Floating-point prices: all arithmetic is on integers.
- HomePage.DescriptionToShow: lengths and the cut count Unicode characters,
  while JavaScript's `length` and `substring` count UTF-16 code units. Text
  outside the Basic Multilingual Plane is therefore cut differently: for
  ("😀a", 2) the code shows "😀..." and the model the text whole. A null
  description throws on `.length` in the code, so the food card fails to
  render; the model's "" is returned as it is.
- OrderContext.FetchOrders: a success body without an `orders` field is not
  represented. The code then stores `undefined`, the orders screen shows its
  empty notice, and a later `addOrder` throws; the model's success always
  carries a list, so `OrdersScreen.View`'s missing-list case is reached only
  from outside the context.

## Findings

| source | as written | input that shows it | evidently intended | confidence | as-written member | corrected member |
|---|---|---|---|---|---|---|
| src/screens/HomePage.js:97-102 | `handleCategorySelect` calls `fetchFoods(category)`. The second argument defaults to the `searchText` of the render the handler was created in, which is the previous search | type "pizza", search, then select a category: the handler's own request is `search?foodName=pizza`. The category effect's request follows it, so the list shown depends on which response arrives last | fetch the category's foods with the search text that was just cleared | medium, not executed | HomePage.CategoryAfterSearchSendsStaleSearch | HomePage.HandleCategorySelectFixed |

=== FILE: cart_actions.dfy ===
/** The Redux cart thunks. Each thunk is modelled as the actions it dispatches
    and the requests it sends, given the server's replies; the resulting state
    is `CartReducer.Run` over the dispatched actions. */
module CartActions {
  import opened Common
  import opened Domain
  import opened CartReducer

  /** What one thunk invocation dispatched and sent, in order. */
  datatype Dispatched = Dispatched(actions: seq<Action>, requests: seq<Request>)

  /** The Authorization header the thunks attach: a bearer header when the
      store holds a token, the empty string otherwise. */
  function AuthHeader(token: string): (h: string)
    ensures h == "" <==> token == ""
    ensures token != "" ==> TokenOf(h) == token
  {
    if token != "" then Bearer(token) else ""
  }

  /** The token a bearer header carries ("" for any other header). */
  function TokenOf(h: string): (token: string) {
    if |h| >= 7 && h[..7] == "Bearer " then h[7..] else ""
  }

  /** Reads the header back to the token it was built from, for every token. */
  lemma AuthHeaderRoundTrip(token: string)
    ensures TokenOf(AuthHeader(token)) == token
  {
  }

  /** `loadCartItems(userId)`: loading on, one fetch, then the cart replaced
      by the converted payload (or emptied on `success: false`; untouched when
      the call throws), then loading off. */
  function LoadCartItems(s: CartState, userId: int, reply: Outcome<seq<ServerCart>>): (d: Dispatched)
    ensures d.requests == [FetchCart(userId, AuthHeader(s.token))]
    ensures |d.actions| >= 2
    ensures |d.actions| == (if reply.Exception? then 2 else 3)
    ensures d.actions[0] == SetLoadingAction(true)
    ensures d.actions[|d.actions| - 1] == SetLoadingAction(false)
    ensures forall i :: 0 < i < |d.actions| - 1 ==> d.actions[i].SetCartItemsAction?
    ensures !Run(s, d.actions).loading
    ensures reply.Success? ==> Run(s, d.actions).cartItems == FormatCarts(reply.payload)
    ensures reply.Refused? ==> Run(s, d.actions).cartItems == []
    ensures reply.Exception? ==> Run(s, d.actions).cartItems == s.cartItems
    ensures Run(s, d.actions).userId == s.userId && Run(s, d.actions).token == s.token
  {
    var body :=
      match reply
      case Success(carts) => [SetCartItemsAction(FormatCarts(carts))]
      case Refused => [SetCartItemsAction([])]
      case Exception => [];
    var d := Dispatched([SetLoadingAction(true)] + body + [SetLoadingAction(false)],
                        [FetchCart(userId, AuthHeader(s.token))]);
    RunConcat(s, [SetLoadingAction(true)] + body, [SetLoadingAction(false)]);
    RunConcat(s, [SetLoadingAction(true)], body);
    d
  }

  /** The validation `addToCartAsync` applies before any request. */
  predicate ValidAddition(food: Option<Food>, quantity: int) {
    food.Some? && food.value.id != 0 && quantity > 0
  }

  /** `addToCartAsync(userId, food, quantity)`: invalid input does nothing;
      otherwise one add request, and only a confirmed add reloads the cart
      from the server (no line is built locally). */
  function AddToCartAsync(s: CartState, userId: int, food: Option<Food>, quantity: int,
                          reply: Outcome<()>, reload: Outcome<seq<ServerCart>>): (d: Dispatched)
    ensures !ValidAddition(food, quantity) ==> d == Dispatched([], [])
    ensures ValidAddition(food, quantity) ==>
              |d.requests| >= 1 &&
              d.requests[0] == AddCartLine(userId, food.value.id, quantity, AuthHeader(s.token))
    ensures ValidAddition(food, quantity) && reply.Success? ==>
              d.requests[1..] == [FetchCart(userId, AuthHeader(s.token))] &&
              !Run(s, d.actions).loading &&
              d.actions == LoadCartItems(s, userId, reload).actions &&
              (reload.Success? ==> Run(s, d.actions).cartItems == FormatCarts(reload.payload)) &&
              (reload.Refused? ==> Run(s, d.actions).cartItems == []) &&
              (reload.Exception? ==> Run(s, d.actions).cartItems == s.cartItems)
    ensures forall i :: 0 <= i < |d.actions| ==> !d.actions[i].AddToCartAction?
    ensures ValidAddition(food, quantity) && !reply.Success? ==>
              d.actions == [] && |d.requests| == 1
  {
    if !ValidAddition(food, quantity) then Dispatched([], [])
    else
      var add := AddCartLine(userId, food.value.id, quantity, AuthHeader(s.token));
      if reply.Success? then
        var load := LoadCartItems(s, userId, reload);
        Dispatched(load.actions, [add] + load.requests)
      else Dispatched([], [add])
  }

  /** `removeCartItemAsync(cartId, userId)`: one delete request; the line is
      removed locally only after the server confirms. */
  function RemoveCartItemAsync(s: CartState, cartId: int, userId: int, reply: Outcome<()>): (d: Dispatched)
    ensures d.requests == [DeleteCartLine(cartId, userId, AuthHeader(s.token))]
    ensures reply.Success? ==> Run(s, d.actions) == RemoveCartItem(s, cartId)
    ensures !reply.Success? ==> Run(s, d.actions) == s
  {
    var req := DeleteCartLine(cartId, userId, AuthHeader(s.token));
    if reply.Success? then Dispatched([RemoveCartItemAction(cartId)], [req])
    else Dispatched([], [req])
  }

  /** `updateQuantityAsync(cartId, newQuantity, userId)`: a quantity of zero or
      less is a removal; otherwise one update request, applied locally only
      after the server confirms. `reply` answers whichever request is sent. */
  function UpdateQuantityAsync(s: CartState, cartId: int, newQuantity: int, userId: int,
                               reply: Outcome<()>): (d: Dispatched)
    ensures newQuantity <= 0 ==> d == RemoveCartItemAsync(s, cartId, userId, reply)
    ensures newQuantity <= 0 ==> forall i :: 0 <= i < |d.requests| ==> !d.requests[i].UpdateCartLine?
    ensures newQuantity > 0 ==> d.requests == [UpdateCartLine(cartId, userId, newQuantity, AuthHeader(s.token))]
    ensures newQuantity > 0 && reply.Success? ==> Run(s, d.actions) == UpdateQuantity(s, cartId, newQuantity)
    ensures !reply.Success? ==> Run(s, d.actions) == s
  {
    if newQuantity <= 0 then RemoveCartItemAsync(s, cartId, userId, reply)
    else
      var req := UpdateCartLine(cartId, userId, newQuantity, AuthHeader(s.token));
      if reply.Success? then Dispatched([UpdateQuantityAction(cartId, newQuantity)], [req])
      else Dispatched([], [req])
  }
}

=== FILE: cart_comparison.dfy ===
/** The Redux slice and the React context implement the same cart
    differently; these lemmas state where they agree and where they do not. */
module CartComparison {
  import opened Common
  import opened Domain
  import CartReducer
  import CartActions
  import CartContext
  import opened CartScreen

  /** No two cart lines share a cart id. */
  predicate UniqueCartIds(lines: seq<CartLine>) {
    forall i, j :: 0 <= i < j < |lines| ==> lines[i].cartId != lines[j].cartId
  }

  /** With unique cart ids, the reducer's first-match quantity update and the
      context's update of every matching line give the same cart. */
  lemma QuantityUpdatesAgree(s: CartReducer.CartState, cartId: int, newQuantity: int)
    requires UniqueCartIds(s.cartItems)
    requires newQuantity > 0
    ensures CartReducer.UpdateQuantity(s, cartId, newQuantity).cartItems
            == CartContext.SetQuantity(s.cartItems, cartId, newQuantity)
  {
  }

  /** Adding a food that is already in the cart: the reducer merges into the
      existing line, the context appends a second line for the same food. */
  lemma AddToCartDisagrees(s: CartReducer.CartState, user: User, food: Food, quantity: int,
                           serverCartId: int, fallbackId: int, now: int, freshCartId: int, k: int)
    requires 0 <= k < |s.cartItems| && s.cartItems[k].foodId == food.id
    requires user.token != "" && food.id != 0 && quantity > 0
    ensures |CartReducer.AddToCart(s, food, quantity, freshCartId).cartItems| == |s.cartItems|
    ensures var c := CartContext.AddToCart(CartContext.CartCtx(s.cartItems, s.loading), Some(user), Some(food),
                                           quantity, Success(serverCartId), fallbackId, now).state;
            |c.cartItems| == |s.cartItems| + 1 &&
            c.cartItems[k].foodId == food.id && c.cartItems[|s.cartItems|].foodId == food.id
  {
    ContextAddAppends(CartContext.CartCtx(s.cartItems, s.loading), user, food, quantity,
                      serverCartId, fallbackId, now);
  }

  /** The reducer's add raises the cart total by `price × quantity`, provided
      the lines already holding this food carry its current price. */
  lemma ReducerAddRaisesTotal(s: CartReducer.CartState, food: Food, quantity: int, freshCartId: int)
    requires forall j :: 0 <= j < |s.cartItems| && s.cartItems[j].foodId == food.id ==>
               s.cartItems[j].food.price == food.price
    ensures Total(CartReducer.AddToCart(s, food, quantity, freshCartId).cartItems)
            == Total(s.cartItems) + food.price * quantity
  {
    var lines := s.cartItems;
    var r := CartReducer.AddToCart(s, food, quantity, freshCartId).cartItems;
    if k :| 0 <= k < |lines| && lines[k].foodId == food.id {
      var i := FirstLineFor(lines, food.id, k);
      var merged := lines[i].(quantity := lines[i].quantity + quantity);
      assert |r| == |lines| && r[i] == merged;
      assert forall j :: 0 <= j < |lines| && j != i ==> r[j] == lines[j];
      assert r == lines[i := merged];
      MergeRaisesTotal(lines, i, food.price, quantity);
    } else {
      var appended := CartLine(food.id, food, quantity, freshCartId, None);
      assert r == lines + [appended];
      TotalConcat(lines, [appended]);
    }
  }

  /** Merging `quantity` more into line `i` raises the total by the line's
      price times `quantity`. */
  lemma MergeRaisesTotal(lines: seq<CartLine>, i: int, price: int, quantity: int)
    requires 0 <= i < |lines| && lines[i].food.price == price
    ensures Total(lines[i := lines[i].(quantity := lines[i].quantity + quantity)])
            == Total(lines) + price * quantity
  {
    var q := lines[i].quantity;
    TotalUpdate(lines, i, lines[i].(quantity := q + quantity));
    assert price * (q + quantity) == price * q + price * quantity;
  }

  /** The context's confirmed add raises the cart total by `price × quantity`. */
  lemma ContextAddRaisesTotal(c: CartContext.CartCtx, user: User, food: Food, quantity: int,
                              serverCartId: int, fallbackId: int, now: int)
    requires user.token != "" && food.id != 0 && quantity > 0
    ensures Total(CartContext.AddToCart(c, Some(user), Some(food), quantity, Success(serverCartId),
                                        fallbackId, now).state.cartItems)
            == Total(c.cartItems) + food.price * quantity
  {
    var added := CartContext.NewLine(food, quantity, serverCartId, fallbackId, now);
    assert CartContext.AddToCart(c, Some(user), Some(food), quantity, Success(serverCartId),
                                 fallbackId, now).state.cartItems == c.cartItems + [added];
    TotalConcat(c.cartItems, [added]);
  }

  /** The smallest position of a line for `foodId`, given that one exists at `k`. */
  lemma FirstLineFor(lines: seq<CartLine>, foodId: int, k: int) returns (i: int)
    requires 0 <= k < |lines| && lines[k].foodId == foodId
    ensures CartReducer.FirstWithFood(lines, foodId, i)
    decreases k
  {
    if exists j :: 0 <= j < k && lines[j].foodId == foodId {
      var j :| 0 <= j < k && lines[j].foodId == foodId;
      i := FirstLineFor(lines, foodId, j);
    } else {
      i := k;
    }
  }

  /** A cart fetch that throws: the thunk keeps the cart, the context empties it. */
  lemma LoadFailureDisagrees(s: CartReducer.CartState, userId: int, user: User)
    requires user.token != "" && s.cartItems != []
    ensures CartReducer.Run(s, CartActions.LoadCartItems(s, userId, Exception).actions).cartItems == s.cartItems
    ensures CartContext.LoadCartItems(CartContext.CartCtx(s.cartItems, s.loading), Some(user), Exception).state.cartItems == []
  {
  }

  /** A confirmed context add keeps the existing lines and appends one line
      for the food. */
  lemma ContextAddAppends(c: CartContext.CartCtx, user: User, food: Food, quantity: int,
                          serverCartId: int, fallbackId: int, now: int)
    requires user.token != "" && food.id != 0 && quantity > 0
    ensures var r := CartContext.AddToCart(c, Some(user), Some(food), quantity, Success(serverCartId),
                                           fallbackId, now).state;
            r.cartItems == c.cartItems + [CartContext.NewLine(food, quantity, serverCartId, fallbackId, now)]
  {
  }
}

=== FILE: cart_context.dfy ===
/** The React cart context, the implementation the screens use. Each handler
    is one atomic step from the current cart, the signed-in user and the
    server's replies to the new cart and the requests sent. */
module CartContext {
  import opened Common
  import opened Domain

  /** The provider's state; it starts as an empty cart that is loading. */
  datatype CartCtx = CartCtx(cartItems: seq<CartLine>, loading: bool)

  /** A signed-in user whose token is present. */
  predicate Authenticated(user: Option<User>) {
    user.Some? && user.value.token != ""
  }

  /** `loadCartItems()`: an unauthenticated user gets an empty cart without a
      request; otherwise one fetch whose converted payload becomes the cart,
      and any failure empties it. Loading always ends off. */
  function LoadCartItems(c: CartCtx, user: Option<User>, reply: Outcome<seq<ServerCart>>): (r: Step<CartCtx>)
    ensures !r.state.loading
    ensures !Authenticated(user) ==> r.state.cartItems == [] && r.requests == []
    ensures Authenticated(user) ==> r.requests == [FetchCart(user.value.id, Bearer(user.value.token))]
    ensures Authenticated(user) && reply.Success? ==> r.state.cartItems == FormatCarts(reply.payload)
    ensures Authenticated(user) && !reply.Success? ==> r.state.cartItems == []
  {
    if !Authenticated(user) then Step(CartCtx([], false), [])
    else
      var items := if reply.Success? then FormatCarts(reply.payload) else [];
      Step(CartCtx(items, false), [FetchCart(user.value.id, Bearer(user.value.token))])
  }

  /** A reload never carries anything over from the cart it replaces. */
  lemma LoadForgetsPrevious(c1: CartCtx, c2: CartCtx, user: Option<User>, reply: Outcome<seq<ServerCart>>)
    ensures LoadCartItems(c1, user, reply) == LoadCartItems(c2, user, reply)
  {
  }

  /** The effect that reloads the cart whenever the signed-in user changes. */
  function OnUserChange(c: CartCtx, user: Option<User>, reply: Outcome<seq<ServerCart>>): (r: Step<CartCtx>)
    ensures r == LoadCartItems(CartCtx([], false), user, reply)
    ensures user.None? ==> r.state.cartItems == [] && r.requests == []
  {
    LoadCartItems(c, user, reply)
  }

  /** The checks `addToCart` makes before any request. */
  predicate ValidAddition(user: Option<User>, food: Option<Food>, quantity: int) {
    Authenticated(user) && food.Some? && food.value.id != 0 && quantity > 0
  }

  /** The line `addToCart` builds after a confirmed add: the server's cart id
      when it sent one, else the fallback id (the code's `Date.now()`). */
  function NewLine(food: Food, quantity: int, serverCartId: int, fallbackId: int, now: int): (l: CartLine)
    ensures l.foodId == food.id && l.food == food && l.quantity == quantity
    ensures serverCartId != 0 ==> l.cartId == serverCartId
    ensures serverCartId == 0 ==> l.cartId == fallbackId
    ensures l.addedTime == Some(now)
  {
    CartLine(food.id, food, quantity, if serverCartId != 0 then serverCartId else fallbackId, Some(now))
  }

  /** `addToCart(food, quantity)`: rejected input sends nothing and changes
      nothing; a confirmed add appends exactly one new line at the end, even
      when a line for the same food exists; a failure changes nothing.
      `reply` carries the cart id the server returned (0 when absent). */
  function AddToCart(c: CartCtx, user: Option<User>, food: Option<Food>, quantity: int,
                     reply: Outcome<int>, fallbackId: int, now: int): (r: Step<CartCtx>)
    ensures !ValidAddition(user, food, quantity) ==> r == Step(c, [])
    ensures ValidAddition(user, food, quantity) ==>
              r.requests == [AddCartLine(user.value.id, food.value.id, quantity, Bearer(user.value.token))]
    ensures ValidAddition(user, food, quantity) && reply.Success? ==>
              |r.state.cartItems| == |c.cartItems| + 1 &&
              r.state.cartItems[..|c.cartItems|] == c.cartItems &&
              r.state.cartItems[|c.cartItems|] == NewLine(food.value, quantity, reply.payload, fallbackId, now)
    ensures ValidAddition(user, food, quantity) && !reply.Success? ==> r.state == c
    ensures r.state.loading == c.loading
  {
    if !ValidAddition(user, food, quantity) then Step(c, [])
    else
      var req := AddCartLine(user.value.id, food.value.id, quantity, Bearer(user.value.token));
      if reply.Success? then
        Step(c.(cartItems := c.cartItems + [NewLine(food.value, quantity, reply.payload, fallbackId, now)]), [req])
      else Step(c, [req])
  }

  /** Every line with `cartId` set to `newQuantity`; the rest untouched. */
  function SetQuantity(lines: seq<CartLine>, cartId: int, newQuantity: int): (r: seq<CartLine>)
    ensures |r| == |lines|
    ensures forall i :: 0 <= i < |r| && lines[i].cartId == cartId ==> r[i] == lines[i].(quantity := newQuantity)
    ensures forall i :: 0 <= i < |r| && lines[i].cartId != cartId ==> r[i] == lines[i]
  {
    seq(|lines|, i requires 0 <= i < |lines| =>
      if lines[i].cartId == cartId then lines[i].(quantity := newQuantity) else lines[i])
  }

  /** `removeCartItem(cartId)`: nothing without a cart id or a user id;
      otherwise one delete request, and the line is filtered out only when the
      server confirms (a non-ok status throws and changes nothing). */
  function RemoveCartItem(c: CartCtx, user: Option<User>, cartId: int, reply: Outcome<()>): (r: Step<CartCtx>)
    ensures cartId == 0 || user.None? || user.value.id == 0 ==> r == Step(c, [])
    ensures cartId != 0 && user.Some? && user.value.id != 0 ==>
              r.requests == [DeleteCartLine(cartId, user.value.id, Bearer(user.value.token))]
    ensures cartId != 0 && user.Some? && user.value.id != 0 && reply.Success? ==>
              r.state == c.(cartItems := WithoutCart(c.cartItems, cartId))
    ensures !reply.Success? ==> r.state == c
  {
    if cartId == 0 || user.None? || user.value.id == 0 then Step(c, [])
    else
      var req := DeleteCartLine(cartId, user.value.id, Bearer(user.value.token));
      if reply.Success? then Step(c.(cartItems := WithoutCart(c.cartItems, cartId)), [req])
      else Step(c, [req])
  }

  /** `updateQuantity(cartId, newQuantity)`: zero or less is a removal.
      Otherwise the new quantity is applied to the local cart first, then one
      update request is sent; if the server refuses or the call throws, the
      cart is reloaded from the server. With no user the code throws right
      after the optimistic change, and the catch reloads (to an empty cart).
      `reply` answers whichever of update or delete is sent; `reload` answers
      the reload. */
  function UpdateQuantity(c: CartCtx, user: Option<User>, cartId: int, newQuantity: int,
                          reply: Outcome<()>, reload: Outcome<seq<ServerCart>>): (r: Step<CartCtx>)
    ensures newQuantity <= 0 ==> r == RemoveCartItem(c, user, cartId, reply)
    ensures newQuantity > 0 && user.Some? ==>
              |r.requests| >= 1 &&
              r.requests[0] == UpdateCartLine(cartId, user.value.id, newQuantity, Bearer(user.value.token))
    ensures newQuantity > 0 && user.Some? && reply.Success? ==>
              r.state == c.(cartItems := SetQuantity(c.cartItems, cartId, newQuantity)) &&
              r.requests == [UpdateCartLine(cartId, user.value.id, newQuantity, Bearer(user.value.token))]
    ensures newQuantity > 0 && user.Some? && !Authenticated(user) ==>
              r.requests == [UpdateCartLine(cartId, user.value.id, newQuantity, Bearer(user.value.token))]
    ensures newQuantity > 0 && user.None? ==> r.requests == [] && r.state.cartItems == []
    ensures newQuantity > 0 && (user.None? || !reply.Success?) ==>
              r.state == LoadCartItems(c, user, reload).state
    ensures newQuantity > 0 && Authenticated(user) && !reply.Success? ==>
              r.requests == [r.requests[0], FetchCart(user.value.id, Bearer(user.value.token))]
  {
    if newQuantity <= 0 then RemoveCartItem(c, user, cartId, reply)
    else
      var optimistic := c.(cartItems := SetQuantity(c.cartItems, cartId, newQuantity));
      if user.None? then LoadCartItems(optimistic, user, reload)
      else
        var req := UpdateCartLine(cartId, user.value.id, newQuantity, Bearer(user.value.token));
        if reply.Success? then Step(optimistic, [req])
        else
          var load := LoadCartItems(optimistic, user, reload);
          Step(load.state, [req] + load.requests)
  }
}

=== FILE: cart_reducer.dfy ===
/** The Redux cart slice: a state record and one pure reducer per action. */
module CartReducer {
  import opened Common
  import opened Seqs
  import opened Domain

  /** The slice state; it starts empty, not loading, with `userId` 0 and `token` "" (the initial nulls). */
  datatype CartState = CartState(cartItems: seq<CartLine>, loading: bool, userId: int, token: string)


  /** The actions the slice accepts, one per reducer. `AddToCartAction`
      carries the id the reducer would build from `food.id + Date.now()`. */
  datatype Action =
    | SetUserIdAction(userId: int)
    | SetTokenAction(token: string)
    | SetCartItemsAction(items: seq<CartLine>)
    | SetLoadingAction(loading: bool)
    | AddToCartAction(food: Food, quantity: int, freshCartId: int)
    | UpdateQuantityAction(cartId: int, newQuantity: int)
    | RemoveCartItemAction(cartId: int)

  /** `i` is the position of the first line for `foodId`. */
  ghost predicate FirstWithFood(lines: seq<CartLine>, foodId: int, i: int) {
    0 <= i < |lines| && lines[i].foodId == foodId &&
    forall j :: 0 <= j < i ==> lines[j].foodId != foodId
  }

  /** `i` is the position of the first line with `cartId`. */
  ghost predicate FirstWithCart(lines: seq<CartLine>, cartId: int, i: int) {
    0 <= i < |lines| && lines[i].cartId == cartId &&
    forall j :: 0 <= j < i ==> lines[j].cartId != cartId
  }

  function SetUserId(s: CartState, userId: int): (r: CartState)
    ensures r.userId == userId
    ensures r.cartItems == s.cartItems && r.loading == s.loading && r.token == s.token
  {
    s.(userId := userId)
  }

  function SetToken(s: CartState, token: string): (r: CartState)
    ensures r.token == token
    ensures r.cartItems == s.cartItems && r.loading == s.loading && r.userId == s.userId
  {
    s.(token := token)
  }

  function SetCartItems(s: CartState, items: seq<CartLine>): (r: CartState)
    ensures r.cartItems == items
    ensures r.loading == s.loading && r.userId == s.userId && r.token == s.token
  {
    s.(cartItems := items)
  }

  function SetLoading(s: CartState, loading: bool): (r: CartState)
    ensures r.loading == loading
    ensures r.cartItems == s.cartItems && r.userId == s.userId && r.token == s.token
  {
    s.(loading := loading)
  }

  /** Adds `quantity` of `food`: merged into the first line with the same
      food id when there is one, otherwise appended as a new line. */
  function AddToCart(s: CartState, food: Food, quantity: int, freshCartId: int): (r: CartState)
    ensures r.loading == s.loading && r.userId == s.userId && r.token == s.token
    ensures forall i :: FirstWithFood(s.cartItems, food.id, i) ==>
              |r.cartItems| == |s.cartItems| &&
              r.cartItems[i] == s.cartItems[i].(quantity := s.cartItems[i].quantity + quantity) &&
              forall j :: 0 <= j < |s.cartItems| && j != i ==> r.cartItems[j] == s.cartItems[j]
    ensures (forall j :: 0 <= j < |s.cartItems| ==> s.cartItems[j].foodId != food.id) ==>
              |r.cartItems| == |s.cartItems| + 1 &&
              r.cartItems[..|s.cartItems|] == s.cartItems &&
              r.cartItems[|s.cartItems|] == CartLine(food.id, food, quantity, freshCartId, None)
  {
    match FirstIndex(s.cartItems, (l: CartLine) => l.foodId == food.id)
    case Some(i) =>
      s.(cartItems := s.cartItems[i := s.cartItems[i].(quantity := s.cartItems[i].quantity + quantity)])
    case None =>
      s.(cartItems := s.cartItems + [CartLine(food.id, food, quantity, freshCartId, None)])
  }

  /** Removes every line with `cartId`, keeping the others in order. */
  function RemoveCartItem(s: CartState, cartId: int): (r: CartState)
    ensures |r.cartItems| <= |s.cartItems|
    ensures forall i :: 0 <= i < |r.cartItems| ==> r.cartItems[i].cartId != cartId && r.cartItems[i] in s.cartItems
    ensures forall i :: 0 <= i < |s.cartItems| && s.cartItems[i].cartId != cartId ==> s.cartItems[i] in r.cartItems
    ensures r.loading == s.loading && r.userId == s.userId && r.token == s.token
  {
    s.(cartItems := WithoutCart(s.cartItems, cartId))
  }

  /** Sets the quantity of the first line with `cartId`; a quantity of zero or
      less removes the line instead; an unknown `cartId` changes nothing. */
  function UpdateQuantity(s: CartState, cartId: int, newQuantity: int): (r: CartState)
    ensures (forall j :: 0 <= j < |s.cartItems| ==> s.cartItems[j].cartId != cartId) ==> r == s
    ensures (exists j :: 0 <= j < |s.cartItems| && s.cartItems[j].cartId == cartId) && newQuantity <= 0 ==>
              r == RemoveCartItem(s, cartId)
    ensures newQuantity > 0 ==>
              forall i :: FirstWithCart(s.cartItems, cartId, i) ==>
                |r.cartItems| == |s.cartItems| &&
                r.cartItems[i] == s.cartItems[i].(quantity := newQuantity) &&
                forall j :: 0 <= j < |s.cartItems| && j != i ==> r.cartItems[j] == s.cartItems[j]
    ensures r.loading == s.loading && r.userId == s.userId && r.token == s.token
  {
    match FirstIndex(s.cartItems, (l: CartLine) => l.cartId == cartId)
    case None => s
    case Some(i) =>
      if newQuantity <= 0 then RemoveCartItem(s, cartId)
      else s.(cartItems := s.cartItems[i := s.cartItems[i].(quantity := newQuantity)])
  }

  /** The slice's root reducer: one action applied to the state. */
  function Reduce(s: CartState, a: Action): (r: CartState)
    ensures a.SetUserIdAction? ==> r.userId == a.userId
    ensures !a.SetUserIdAction? ==> r.userId == s.userId
    ensures a.SetTokenAction? ==> r.token == a.token
    ensures !a.SetTokenAction? ==> r.token == s.token
    ensures a.SetLoadingAction? ==> r.loading == a.loading
    ensures !a.SetLoadingAction? ==> r.loading == s.loading
    ensures a.SetCartItemsAction? ==> r.cartItems == a.items
    ensures a.SetUserIdAction? || a.SetTokenAction? || a.SetLoadingAction? ==> r.cartItems == s.cartItems
  {
    match a
    case SetUserIdAction(u) => SetUserId(s, u)
    case SetTokenAction(t) => SetToken(s, t)
    case SetCartItemsAction(items) => SetCartItems(s, items)
    case SetLoadingAction(b) => SetLoading(s, b)
    case AddToCartAction(f, q, id) => AddToCart(s, f, q, id)
    case UpdateQuantityAction(c, q) => UpdateQuantity(s, c, q)
    case RemoveCartItemAction(c) => RemoveCartItem(s, c)
  }

  /** The state after dispatching `actions` in order. */
  function Run(s: CartState, actions: seq<Action>): (r: CartState)
    decreases |actions|
  {
    if actions == [] then s else Run(Reduce(s, actions[0]), actions[1..])
  }

  /** Dispatching two batches in turn is dispatching their concatenation. */
  lemma {:induction false} RunConcat(s: CartState, a: seq<Action>, b: seq<Action>)
    ensures Run(s, a + b) == Run(Run(s, a), b)
    decreases |a|
  {
    if a == [] {
      assert a + b == b;
    } else {
      assert (a + b)[0] == a[0];
      assert (a + b)[1..] == a[1..] + b;
      RunConcat(Reduce(s, a[0]), a[1..], b);
    }
  }

  /** Removing the same cart id twice leaves the state of removing it once. */
  lemma RemoveCartItemIdempotent(s: CartState, cartId: int)
    ensures RemoveCartItem(RemoveCartItem(s, cartId), cartId) == RemoveCartItem(s, cartId)
  {
    WithoutCartIdempotent(s.cartItems, cartId);
  }

  /** Removal keeps the relative order of the surviving lines: it acts on a
      split cart piece by piece. */
  lemma RemoveCartItemKeepsOrder(s: CartState, a: seq<CartLine>, b: seq<CartLine>, cartId: int)
    requires s.cartItems == a + b
    ensures RemoveCartItem(s, cartId).cartItems == WithoutCart(a, cartId) + WithoutCart(b, cartId)
  {
    WithoutCartConcat(a, b, cartId);
  }
}

=== FILE: cart_screen.dfy ===
/** The cart screen: the running total, the per-line quantity buttons and the
    checkout button that hands the total to the checkout screen. */
module CartScreen {
  import opened Common
  import opened Domain
  import CartContext
  import CheckoutScreen
  import OrderContext

  /** Sum of `price × quantity` over the lines (reference definition). */
  function Total(lines: seq<CartLine>): (total: int) {
    if lines == [] then 0 else lines[0].food.price * lines[0].quantity + Total(lines[1..])
  }

  /** The total of concatenated carts is the sum of their totals. */
  lemma {:induction false} TotalConcat(a: seq<CartLine>, b: seq<CartLine>)
    ensures Total(a + b) == Total(a) + Total(b)
  {
    if a == [] {
      assert a + b == b;
    } else {
      assert (a + b)[0] == a[0];
      assert (a + b)[1..] == a[1..] + b;
      TotalConcat(a[1..], b);
    }
  }

  /** Replacing one line changes the total by the difference of the two
      lines' `price × quantity`. */
  lemma {:induction false} TotalUpdate(lines: seq<CartLine>, i: int, l: CartLine)
    requires 0 <= i < |lines|
    ensures Total(lines[i := l]) == Total(lines) - lines[i].food.price * lines[i].quantity + l.food.price * l.quantity
  {
    var pre, post := lines[..i], lines[i + 1..];
    assert lines == pre + ([lines[i]] + post);
    assert lines[i := l] == pre + ([l] + post);
    TotalConcat(pre, [lines[i]] + post);
    TotalConcat(pre, [l] + post);
    TotalConcat([lines[i]], post);
    TotalConcat([l], post);
  }

  /** An empty cart totals 0; a single line totals its price times quantity. */
  lemma TotalBasics(l: CartLine)
    ensures Total([]) == 0
    ensures Total([l]) == l.food.price * l.quantity
  {
  }

  /** `calculateTotalPrice()`: the left-to-right `reduce` the screen runs. */
  method CalculateTotalPrice(cartItems: seq<CartLine>) returns (total: int)
    ensures total == Total(cartItems)
  {
    total := 0;
    var i := 0;
    while i < |cartItems|
      invariant 0 <= i <= |cartItems|
      invariant total == Total(cartItems[..i])
    {
      TotalConcat(cartItems[..i], [cartItems[i]]);
      assert cartItems[..i + 1] == cartItems[..i] + [cartItems[i]];
      total := total + cartItems[i].food.price * cartItems[i].quantity;
      i := i + 1;
    }
    assert cartItems[..i] == cartItems;
  }

  /** The two quantity buttons of a cart line. */
  datatype Button = Minus | Plus

  /** The quantity a button asks for: one less or one more than shown. */
  function RequestedQuantity(line: CartLine, button: Button): (q: int)
    ensures button == Plus ==> q == line.quantity + 1
    ensures button == Minus ==> q == line.quantity - 1
    ensures q != line.quantity
  {
    match button
    case Plus => line.quantity + 1
    case Minus => line.quantity - 1
  }

  /** Pressing a quantity button on a line calls the context's
      `updateQuantity` with the line's cart id and the requested quantity. */
  function PressQuantityButton(c: CartContext.CartCtx, user: Option<User>, line: CartLine, button: Button,
                               reply: Outcome<()>, reload: Outcome<seq<ServerCart>>): (r: Step<CartContext.CartCtx>)
    ensures r == CartContext.UpdateQuantity(c, user, line.cartId, RequestedQuantity(line, button), reply, reload)
    ensures button == Minus && line.quantity <= 1 ==> r == CartContext.RemoveCartItem(c, user, line.cartId, reply)
  {
    CartContext.UpdateQuantity(c, user, line.cartId, RequestedQuantity(line, button), reply, reload)
  }

  /** The `priceToPay` the checkout button passes: the current cart's total. */
  method CheckoutPriceToPay(c: CartContext.CartCtx) returns (priceToPay: int)
    ensures priceToPay == Total(c.cartItems)
  {
    priceToPay := CalculateTotalPrice(c.cartItems);
  }

  /** Paying with the price the cart screen passed charges exactly the total
      of the cart that was on screen. */
  lemma CheckoutChargesCartTotal(c: CartContext.CartCtx, orders: OrderContext.OrderCtx,
                                 session: CheckoutScreen.Session, card: Card,
                                 orderReply: Outcome<()>, okPressed: bool,
                                 ordersReply: Outcome<seq<Order>>, cartReply: Outcome<seq<ServerCart>>)
    requires CheckoutScreen.SignedIn(session)
    ensures var r := CheckoutScreen.PayForOrder(c, orders, session, card, Total(c.cartItems), orderReply,
                                                okPressed, ordersReply, cartReply);
            r.requests[0].CreateOrder? && r.requests[0].body.amount == Total(c.cartItems)
  {
  }
}

=== FILE: checkout_screen.dfy ===
/** The checkout screen: the card form and the pay handler, which sends one
    order request and, once the user acknowledges success, refreshes the
    orders and then reloads the cart. */
module CheckoutScreen {
  import opened Common
  import opened Domain
  import CartContext
  import OrderContext

  /** The four inputs of the card form. */
  datatype CardField = CardName | CardNumber | ValidThrough | Cvv

  /** The value a form field currently shows. */
  function FieldValue(card: Card, field: CardField): string {
    match field
    case CardName => card.cardName
    case CardNumber => card.cardNumber
    case ValidThrough => card.validThrough
    case Cvv => card.cvv
  }

  /** `handleCardInput(field, value)`: that field takes the value, every
      other field keeps its own. */
  function HandleCardInput(card: Card, field: CardField, value: string): (r: Card)
    ensures FieldValue(r, field) == value
    ensures forall f :: f != field ==> FieldValue(r, f) == FieldValue(card, f)
  {
    match field
    case CardName => card.(cardName := value)
    case CardNumber => card.(cardNumber := value)
    case ValidThrough => card.(validThrough := value)
    case Cvv => card.(cvv := value)
  }

  /** What the pay handler reads from the session: the signed-in user (used by
      the two refreshes) and the stored `jwtToken` and `userId` entries. */
  datatype Session = Session(user: Option<User>, storedToken: string, storedUserId: int)

  /** Where the screen navigates afterwards. */
  datatype Destination = Profile | Orders

  /** The cart and order contexts after paying, the requests sent in order,
      and the navigation taken, if any. */
  datatype Payment = Payment(cart: CartContext.CartCtx, orders: OrderContext.OrderCtx,
                             requests: seq<Request>, navigateTo: Option<Destination>)

  /** The pay handler's guard: both stored entries must be present. */
  predicate SignedIn(session: Session) {
    session.storedToken != "" && session.storedUserId != 0
  }

  /** No cart fetch is sent before any order fetch. */
  predicate OrdersBeforeCart(requests: seq<Request>) {
    forall i, j :: 0 <= i < j < |requests| ==> !(requests[i].FetchCart? && requests[j].FetchUserOrders?)
  }

  /** `payForOrder()`. Without stored credentials: no request, back to the
      profile screen. Otherwise one order request carrying the route's
      `priceToPay` and the card as typed. A refused or failed order changes
      nothing more. A successful one shows an alert; only when its OK button
      is pressed (`okPressed`) are the orders refreshed and, after that
      completes, the cart reloaded, and the screen moves to the orders list. */
  function PayForOrder(cart: CartContext.CartCtx, orders: OrderContext.OrderCtx, session: Session,
                       card: Card, priceToPay: int, orderReply: Outcome<()>, okPressed: bool,
                       ordersReply: Outcome<seq<Order>>, cartReply: Outcome<seq<ServerCart>>): (r: Payment)
    ensures !SignedIn(session) ==> r == Payment(cart, orders, [], Some(Profile))
    ensures SignedIn(session) ==>
              |r.requests| >= 1 &&
              r.requests[0] == CreateOrder(session.storedUserId, OrderBody(card, priceToPay), Bearer(session.storedToken))
    ensures SignedIn(session) && (!orderReply.Success? || !okPressed) ==>
              r == Payment(cart, orders, r.requests, None) && |r.requests| == 1
    ensures SignedIn(session) && orderReply.Success? && okPressed ==>
              r.orders == OrderContext.RefreshOrders(orders, session.user, session.storedToken, ordersReply).state &&
              r.cart == CartContext.LoadCartItems(cart, session.user, cartReply).state &&
              r.navigateTo == Some(Orders)
    ensures SignedIn(session) && orderReply.Success? && okPressed ==>
              r.requests == [CreateOrder(session.storedUserId, OrderBody(card, priceToPay), Bearer(session.storedToken))]
                            + OrderContext.RefreshOrders(orders, session.user, session.storedToken, ordersReply).requests
                            + CartContext.LoadCartItems(cart, session.user, cartReply).requests
    ensures SignedIn(session) && orderReply.Success? && okPressed && CartContext.Authenticated(session.user) ==>
              r.requests == [CreateOrder(session.storedUserId, OrderBody(card, priceToPay), Bearer(session.storedToken)),
                             FetchUserOrders(session.user.value.id, Bearer(session.storedToken)),
                             FetchCart(session.user.value.id, Bearer(session.user.value.token))]
    ensures OrdersBeforeCart(r.requests)
  {
    if !SignedIn(session) then Payment(cart, orders, [], Some(Profile))
    else
      var create := CreateOrder(session.storedUserId, OrderBody(card, priceToPay), Bearer(session.storedToken));
      if orderReply.Success? && okPressed then
        var refreshed := OrderContext.RefreshOrders(orders, session.user, session.storedToken, ordersReply);
        var reloaded := CartContext.LoadCartItems(cart, session.user, cartReply);
        Payment(reloaded.state, refreshed.state, [create] + refreshed.requests + reloaded.requests, Some(Orders))
      else Payment(cart, orders, [create], None)
  }
}

=== FILE: common.dfy ===
/** The optional values and call outcomes shared by every module of the model. */
module Common {

  /** A value that may be absent: JavaScript's `null`/`undefined`. */
  datatype Option<+T> = None | Some(value: T) {

    /** The wrapped value, or `default` when absent (JavaScript's `x || default`
        for values that are never falsy when present). */
    function GetOr(default: T): T {
      match this
      case Some(v) => v
      case None => default
    }
  }

  /** How one server call settled, seen from the client:
      - `Success(payload)`: a response arrived whose body says `success: true`;
      - `Refused`: a response arrived whose body says `success: false`;
      - `Exception`: the call threw (network failure, unparsable body, or an
        error the handler raised itself). */
  datatype Outcome<+T> = Success(payload: T) | Refused | Exception
}

=== FILE: delivery_orders.dfy ===
/** The delivery agent's screen: orders move Pending → Processing →
    Delivered through two buttons and are shown in three status lists. */
module DeliveryOrders {
  import opened Common
  import opened Seqs

  /** A status string other than the three the screen knows. */
  type UnknownStatus = t: string | t != "Pending" && t != "Processing" && t != "Delivered" witness ""

  /** The status strings the screen knows; any other string is `Other`, so
      each string has exactly one `Status`. */
  datatype Status = Pending | Processing | Delivered | Other(text: UnknownStatus)

  /** The string an order's `status` field holds. */
  function StatusText(s: Status): (text: string) {
    match s
    case Pending => "Pending"
    case Processing => "Processing"
    case Delivered => "Delivered"
    case Other(t) => t
  }

  /** Reads a `status` string, as the screen's `===` comparisons do. */
  function ParseStatus(text: string): (s: Status)
    ensures StatusText(s) == text
    ensures s == Pending <==> text == "Pending"
    ensures s == Processing <==> text == "Processing"
    ensures s == Delivered <==> text == "Delivered"
  {
    if text == "Pending" then Pending
    else if text == "Processing" then Processing
    else if text == "Delivered" then Delivered
    else Other(text)
  }

  /** Every status is read back from its string: no two statuses share one. */
  lemma ParseStatusText(s: Status)
    ensures ParseStatus(StatusText(s)) == s
  {
  }

  datatype DeliveryOrder = DeliveryOrder(id: string, customerName: string, address: string, status: Status)

  /** The three orders the screen starts with. */
  const InitialOrders: seq<DeliveryOrder> := [
    DeliveryOrder("1", "Alice", "123 Main St, City A", Pending),
    DeliveryOrder("2", "Bob", "456 Elm St, City B", Processing),
    DeliveryOrder("3", "Charlie", "789 Oak St, City C", Delivered)
  ]

  /** How far along the delivery an order is; unknown statuses come first. */
  function Progress(s: Status): (step: int) {
    match s
    case Other(_) => -1
    case Pending => 0
    case Processing => 1
    case Delivered => 2
  }

  /** `updateOrderStatus(orderId, newStatus)`: every order with that id takes
      the new status; nothing else about any order changes. */
  function UpdateOrderStatus(orders: seq<DeliveryOrder>, orderId: string, newStatus: Status): (r: seq<DeliveryOrder>)
    ensures |r| == |orders|
    ensures forall i :: 0 <= i < |r| ==>
              r[i].id == orders[i].id && r[i].customerName == orders[i].customerName &&
              r[i].address == orders[i].address
    ensures forall i :: 0 <= i < |r| && orders[i].id == orderId ==> r[i].status == newStatus
    ensures forall i :: 0 <= i < |r| && orders[i].id != orderId ==> r[i] == orders[i]
  {
    seq(|orders|, i requires 0 <= i < |orders| =>
      if orders[i].id == orderId then orders[i].(status := newStatus) else orders[i])
  }

  /** The button a card offers: accept a pending order, complete a processing
      one; delivered and unknown orders offer none. */
  function OfferedTransition(s: Status): (next: Option<Status>)
    ensures next.Some? ==> Progress(next.value) == Progress(s) + 1
    ensures next.Some? <==> s == Pending || s == Processing
  {
    match s
    case Pending => Some(Processing)
    case Processing => Some(Delivered)
    case _ => None
  }

  /** Pressing the button on an order's card (no change when it has none). */
  function PressButton(orders: seq<DeliveryOrder>, order: DeliveryOrder): (r: seq<DeliveryOrder>)
    ensures OfferedTransition(order.status).None? ==> r == orders
    ensures |r| == |orders|
    ensures forall i :: 0 <= i < |r| ==> r[i].(status := orders[i].status) == orders[i]
    ensures OfferedTransition(order.status).Some? ==>
              forall i :: 0 <= i < |r| && orders[i].id == order.id ==>
                r[i].status == OfferedTransition(order.status).value
  {
    match OfferedTransition(order.status)
    case Some(next) => UpdateOrderStatus(orders, order.id, next)
    case None => orders
  }

  /** No two orders share an id (the list's key). */
  predicate UniqueIds(orders: seq<DeliveryOrder>) {
    forall i, j :: 0 <= i < j < |orders| ==> orders[i].id != orders[j].id
  }

  /** With unique ids, pressing a card's button advances that order by
      exactly one step and leaves every other order as it was: no status
      ever moves backwards. */
  lemma ButtonOnlyAdvances(orders: seq<DeliveryOrder>, k: int)
    requires UniqueIds(orders)
    requires 0 <= k < |orders|
    ensures var r := PressButton(orders, orders[k]);
            (forall i :: 0 <= i < |orders| ==> Progress(orders[i].status) <= Progress(r[i].status)) &&
            (forall i :: 0 <= i < |orders| && i != k ==> r[i] == orders[i]) &&
            r[k].(status := orders[k].status) == orders[k] &&
            (OfferedTransition(orders[k].status).Some? ==>
               Progress(r[k].status) == Progress(orders[k].status) + 1)
  {
  }

  predicate IsPending(o: DeliveryOrder) { o.status == Pending }
  predicate IsProcessing(o: DeliveryOrder) { o.status == Processing }
  predicate IsDelivered(o: DeliveryOrder) { o.status == Delivered }
  predicate IsTracked(o: DeliveryOrder) { !o.status.Other? }

  /** The three lists the screen shows, each in list order. */
  function PendingList(orders: seq<DeliveryOrder>): (r: seq<DeliveryOrder>)
    ensures forall i :: 0 <= i < |r| ==> r[i].status == Pending
    ensures forall i :: 0 <= i < |orders| && orders[i].status == Pending ==> orders[i] in r
  {
    Filter(orders, IsPending)
  }

  function ProcessingList(orders: seq<DeliveryOrder>): (r: seq<DeliveryOrder>)
    ensures forall i :: 0 <= i < |r| ==> r[i].status == Processing
    ensures forall i :: 0 <= i < |orders| && orders[i].status == Processing ==> orders[i] in r
  {
    Filter(orders, IsProcessing)
  }

  function DeliveredList(orders: seq<DeliveryOrder>): (r: seq<DeliveryOrder>)
    ensures forall i :: 0 <= i < |r| ==> r[i].status == Delivered
    ensures forall i :: 0 <= i < |orders| && orders[i].status == Delivered ==> orders[i] in r
  {
    Filter(orders, IsDelivered)
  }

  /** The one-order list `Filter` yields for `o`. */
  function KeptPart(o: DeliveryOrder, keep: DeliveryOrder -> bool): seq<DeliveryOrder> {
    if keep(o) then [o] else []
  }

  /** Filtering a list with one more order in front. */
  lemma FilterFront(o: DeliveryOrder, rest: seq<DeliveryOrder>, keep: DeliveryOrder -> bool)
    ensures Filter([o] + rest, keep) == KeptPart(o, keep) + Filter(rest, keep)
  {
    assert ([o] + rest)[1..] == rest;
    FilterCons([o] + rest, keep);
  }

  /** Filtering a two-order list, one order at a time. */
  lemma FilterTwo(o1: DeliveryOrder, o2: DeliveryOrder, keep: DeliveryOrder -> bool)
    ensures Filter([o1, o2], keep) == KeptPart(o1, keep) + KeptPart(o2, keep)
  {
    FilterFront(o2, [], keep);
    assert [o2] + [] == [o2];
    FilterFront(o1, [o2], keep);
    assert [o1] + [o2] == [o1, o2];
  }

  /** Filtering a three-order list, one order at a time. */
  lemma FilterThree(o0: DeliveryOrder, o1: DeliveryOrder, o2: DeliveryOrder, keep: DeliveryOrder -> bool)
    ensures Filter([o0, o1, o2], keep) == KeptPart(o0, keep) + (KeptPart(o1, keep) + KeptPart(o2, keep))
  {
    FilterTwo(o1, o2, keep);
    FilterFront(o0, [o1, o2], keep);
    assert [o0] + [o1, o2] == [o0, o1, o2];
  }

  /** The screen's opening orders have distinct ids, as their list keys need. */
  lemma InitialOrdersUniqueIds()
    ensures UniqueIds(InitialOrders)
  {
  }

  /** The screen opens with exactly Alice's order pending. */
  lemma InitialPending()
    ensures PendingList(InitialOrders) == [InitialOrders[0]]
  {
    var o0, o1, o2 := InitialOrders[0], InitialOrders[1], InitialOrders[2];
    assert InitialOrders == [o0, o1, o2];
    FilterThree(o0, o1, o2, IsPending);
  }

  /** The screen opens with exactly Bob's order in progress. */
  lemma InitialProcessing()
    ensures ProcessingList(InitialOrders) == [InitialOrders[1]]
  {
    var o0, o1, o2 := InitialOrders[0], InitialOrders[1], InitialOrders[2];
    assert InitialOrders == [o0, o1, o2];
    FilterThree(o0, o1, o2, IsProcessing);
  }

  /** The screen opens with exactly Charlie's order delivered. */
  lemma InitialDelivered()
    ensures DeliveredList(InitialOrders) == [InitialOrders[2]]
  {
    var o0, o1, o2 := InitialOrders[0], InitialOrders[1], InitialOrders[2];
    assert InitialOrders == [o0, o1, o2];
    FilterThree(o0, o1, o2, IsDelivered);
  }

  /** The three lists together hold each order with a known status exactly
      once (as multisets they add up to those orders), and orders with any
      other status appear in none of them. */
  lemma {:induction false} ListsPartition(orders: seq<DeliveryOrder>)
    ensures multiset(PendingList(orders)) + multiset(ProcessingList(orders)) + multiset(DeliveredList(orders))
            == multiset(Filter(orders, IsTracked))
    ensures |PendingList(orders)| + |ProcessingList(orders)| + |DeliveredList(orders)|
            == |Filter(orders, IsTracked)|
  {
    if orders != [] {
      var o, rest := orders[0], orders[1..];
      assert orders == [o] + rest;
      ListsPartition(rest);
      FilterFront(o, rest, IsPending);
      FilterFront(o, rest, IsProcessing);
      FilterFront(o, rest, IsDelivered);
      FilterFront(o, rest, IsTracked);
      OneOrderPartition(o);
    }
  }

  /** A single order lands in exactly the list of its status, and in none
      when its status is unknown. */
  lemma OneOrderPartition(o: DeliveryOrder)
    ensures multiset(KeptPart(o, IsPending)) + multiset(KeptPart(o, IsProcessing)) + multiset(KeptPart(o, IsDelivered))
            == multiset(KeptPart(o, IsTracked))
    ensures |KeptPart(o, IsPending)| + |KeptPart(o, IsProcessing)| + |KeptPart(o, IsDelivered)|
            == |KeptPart(o, IsTracked)|
  {
  }

  /** Each displayed list keeps the relative order of the full list. */
  lemma ListsKeepOrder(a: seq<DeliveryOrder>, b: seq<DeliveryOrder>)
    ensures PendingList(a + b) == PendingList(a) + PendingList(b)
    ensures ProcessingList(a + b) == ProcessingList(a) + ProcessingList(b)
    ensures DeliveredList(a + b) == DeliveredList(a) + DeliveredList(b)
  {
    FilterConcat(a, b, IsPending);
    FilterConcat(a, b, IsProcessing);
    FilterConcat(a, b, IsDelivered);
  }
}

=== FILE: domain.dfy ===
/** The records the client exchanges with the food-ordering server, and the
    requests it can issue. Identifiers are integers in which 0 stands for a
    missing (falsy) id; strings use "" for a missing (null or empty) value.
    The client mostly tests strings for truthiness only, where the two are
    alike. It does not do so for a food's description, whose `length` it
    reads, or for the user token the cart context interpolates unchecked
    into "Bearer ..." headers. */
module Domain {
  import opened Common
  import opened Seqs

  /** A catalogue item as the server sends it (image fields omitted). */
  datatype Food = Food(id: int, name: string, price: int, description: string)

  /** One line of the client-side cart. `addedTime` is absent on lines the
      Redux reducer builds locally. */
  datatype CartLine = CartLine(foodId: int, food: Food, quantity: int, cartId: int, addedTime: Option<int>)

  /** One cart entry as returned by the cart-fetch endpoint. */
  datatype ServerCart = ServerCart(id: int, food: Food, quantity: int, addedTime: int)

  /** A customer order as returned by the order-fetch endpoint. */
  datatype Order = Order(orderId: int, status: string, orderTime: int, food: Option<Food>, quantity: Option<int>)

  /** The authenticated identity held by the session: user id and bearer token. */
  datatype User = User(id: int, token: string)

  /** The payment card typed in at checkout. */
  datatype Card = Card(cardName: string, cardNumber: string, validThrough: string, cvv: string)

  /** The body of the order-create request. */
  datatype OrderBody = OrderBody(cardDetails: Card, amount: int)

  /** Which food-list endpoint the home page queries. */
  datatype Endpoint = SearchByName(foodName: string) | ByCategory(categoryId: int) | AllFoods

  /** The JSON body of a food-list response: either a bare array, or an
      object whose `foods` field may be absent. */
  datatype FoodsPayload = ArrayPayload(items: seq<Food>) | ObjectPayload(foods: Option<seq<Food>>)

  /** How a food fetch settled: a parsed body, or a throw. */
  datatype FoodsReply = Body(payload: FoodsPayload) | Threw

  /** Every request the modelled code sends; `auth` is the Authorization header. */
  datatype Request =
    | FetchCart(userId: int, auth: string)
    | AddCartLine(userId: int, foodId: int, quantity: int, auth: string)
    | UpdateCartLine(cartId: int, userId: int, quantity: int, auth: string)
    | DeleteCartLine(cartId: int, userId: int, auth: string)
    | FetchUserOrders(userId: int, auth: string)
    | CreateOrder(userId: int, body: OrderBody, auth: string)
    | FetchFoods(endpoint: Endpoint)
    | FetchFoodDetail(foodId: int)

  /** The new state a handler leaves behind, with the requests it issued in order. */
  datatype Step<S> = Step(state: S, requests: seq<Request>)

  /** The Authorization header value for a token. */
  function Bearer(token: string): (h: string)
    ensures |h| == 7 + |token| && h[7..] == token
  {
    "Bearer " + token
  }

  /** A server cart entry as the client stores it: `foodId` copied from the
      embedded food, `cartId` from the entry id. The conversion loses nothing. */
  function FormatCart(c: ServerCart): (l: CartLine)
    ensures l.foodId == c.food.id
    ensures ServerCartOf(l) == Some(c)
  {
    CartLine(c.food.id, c.food, c.quantity, c.id, Some(c.addedTime))
  }

  /** The server entry a stored line came from, when it carries all of one. */
  function ServerCartOf(l: CartLine): (entry: Option<ServerCart>) {
    if l.addedTime.Some? && l.foodId == l.food.id
    then Some(ServerCart(l.cartId, l.food, l.quantity, l.addedTime.value))
    else None
  }

  /** The whole cart-fetch payload converted line by line, keeping order. */
  function FormatCarts(cs: seq<ServerCart>): (r: seq<CartLine>)
    ensures |r| == |cs|
    ensures forall i :: 0 <= i < |r| ==> ServerCartOf(r[i]) == Some(cs[i])
  {
    seq(|cs|, i requires 0 <= i < |cs| => FormatCart(cs[i]))
  }

  /** Conversion of a concatenated payload is the concatenation of conversions. */
  lemma FormatCartsConcat(a: seq<ServerCart>, b: seq<ServerCart>)
    ensures FormatCarts(a + b) == FormatCarts(a) + FormatCarts(b)
  {
  }

  /** The cart lines without any line whose `cartId` is `cartId`. */
  function WithoutCart(lines: seq<CartLine>, cartId: int): (r: seq<CartLine>)
    ensures forall i :: 0 <= i < |r| ==> r[i].cartId != cartId && r[i] in lines
    ensures forall i :: 0 <= i < |lines| && lines[i].cartId != cartId ==> lines[i] in r
    ensures (forall i :: 0 <= i < |lines| ==> lines[i].cartId != cartId) ==> r == lines
  {
    FilterKeepsAllFor(lines, cartId);
    Filter(lines, (l: CartLine) => l.cartId != cartId)
  }

  /** When no line carries `cartId`, filtering it out returns the lines as they were. */
  lemma FilterKeepsAllFor(lines: seq<CartLine>, cartId: int)
    ensures (forall i :: 0 <= i < |lines| ==> lines[i].cartId != cartId) ==>
              Filter(lines, (l: CartLine) => l.cartId != cartId) == lines
  {
    if forall i :: 0 <= i < |lines| ==> lines[i].cartId != cartId {
      FilterKeepsAll(lines, (l: CartLine) => l.cartId != cartId);
    }
  }

  /** Removing a cart id keeps the relative order of the remaining lines. */
  lemma WithoutCartConcat(a: seq<CartLine>, b: seq<CartLine>, cartId: int)
    ensures WithoutCart(a + b, cartId) == WithoutCart(a, cartId) + WithoutCart(b, cartId)
  {
    FilterConcat(a, b, (l: CartLine) => l.cartId != cartId);
  }

  /** Removing a cart id twice is removing it once. */
  lemma WithoutCartIdempotent(lines: seq<CartLine>, cartId: int)
    ensures WithoutCart(WithoutCart(lines, cartId), cartId) == WithoutCart(lines, cartId)
  {
    FilterIdempotent(lines, (l: CartLine) => l.cartId != cartId);
  }
}

=== FILE: food_detail.dfy ===
/** The food detail screen: the id guard, the detail fetch, the quantity
    stepper and the add-to-cart button. The quantity is held as text; the
    model holds `parseInt` of that text, `None` for NaN. */
module FoodDetail {
  import opened Common
  import opened Domain
  import CartContext
  import HomePage

  /** What the screen does with its `foodId` route parameter. */
  datatype FoodIdCheck = GoBack | Fetch(request: Request)

  /** A missing, zero or non-numeric id (`None` is missing or non-numeric)
      sends the user back without a fetch. */
  function CheckFoodId(foodId: Option<int>): (r: FoodIdCheck)
    ensures r.Fetch? <==> foodId.Some? && foodId.value != 0
    ensures r.Fetch? ==> r.request == FetchFoodDetail(foodId.value)
  {
    if foodId.None? || foodId.value == 0 then GoBack else Fetch(FetchFoodDetail(foodId.value))
  }

  /** Opening a food card from the home page fetches exactly that food's
      details; a card whose food has no id sends the user straight back. */
  lemma CardOpensItsFood(food: Food)
    ensures food.id != 0 ==> CheckFoodId(HomePage.CardRoute(food)) == Fetch(FetchFoodDetail(food.id))
    ensures food.id == 0 ==> CheckFoodId(HomePage.CardRoute(food)) == GoBack
  {
  }

  /** The food the detail fetch yields: the first element of a non-empty
      `foods` array; anything else is an error (and the screen goes back). */
  function AcceptFoodData(reply: FoodsReply): (r: Option<Food>)
    ensures r.Some? <==> reply.Body? && reply.payload.ObjectPayload? &&
                         reply.payload.foods.Some? && |reply.payload.foods.value| > 0
    ensures r.Some? ==> r.value == reply.payload.foods.value[0]
  {
    match reply
    case Body(ObjectPayload(Some(foods))) => if |foods| > 0 then Some(foods[0]) else None
    case _ => None
  }

  /** Whenever the detail screen accepts a food from a response, the home
      page would list that same food first for the same response. */
  lemma AcceptedFoodIsListedFirst(reply: FoodsReply)
    requires AcceptFoodData(reply).Some?
    ensures |HomePage.NormalizeFoods(reply)| > 0
    ensures HomePage.NormalizeFoods(reply)[0] == AcceptFoodData(reply).value
  {
  }

  /** The quantity shown when the screen opens. */
  const InitialQuantity: Option<int> := Some(1)

  /** `handleIncrease`: one more; NaN stays NaN. */
  function HandleIncrease(q: Option<int>): (r: Option<int>)
    ensures r.Some? <==> q.Some?
    ensures q.Some? ==> r.value == q.value + 1
  {
    match q
    case Some(v) => Some(v + 1)
    case None => None
  }

  /** `handleDecrease`: one less while above 1, otherwise 1 (also for NaN). */
  function HandleDecrease(q: Option<int>): (r: Option<int>)
    ensures r.Some? && r.value >= 1
    ensures q.Some? && q.value > 1 ==> r.value == q.value - 1
    ensures !(q.Some? && q.value > 1) ==> r.value == 1
  {
    if q.Some? && q.value > 1 then Some(q.value - 1) else Some(1)
  }

  /** The stepper after a series of button presses (`true` is "+"). */
  function Press(q: Option<int>, presses: seq<bool>): (r: Option<int>)
    decreases |presses|
  {
    if presses == [] then q
    else Press(if presses[0] then HandleIncrease(q) else HandleDecrease(q), presses[1..])
  }

  /** The stepper opens at 1, so no series of presses takes it below 1. */
  lemma StepperFromOpening(presses: seq<bool>)
    ensures Press(InitialQuantity, presses).Some? && Press(InitialQuantity, presses).value >= 1
  {
    StepperStaysPositive(InitialQuantity, presses);
  }

  /** Starting from any positive quantity, the buttons alone never take the
      stepper below 1. */
  lemma {:induction false} StepperStaysPositive(q: Option<int>, presses: seq<bool>)
    requires q.Some? && q.value >= 1
    ensures Press(q, presses).Some? && Press(q, presses).value >= 1
    decreases |presses|
  {
    if presses != [] {
      var next := if presses[0] then HandleIncrease(q) else HandleDecrease(q);
      StepperStaysPositive(next, presses[1..]);
    }
  }

  /** `addToCartHandler`: a NaN or non-positive quantity is rejected without
      calling the context; a valid one calls `addToCart(food, quantity)` once
      with the parsed value. */
  function AddToCartHandler(c: CartContext.CartCtx, user: Option<User>, food: Food, parsed: Option<int>,
                            reply: Outcome<int>, fallbackId: int, now: int): (r: Step<CartContext.CartCtx>)
    ensures parsed.None? || parsed.value <= 0 ==> r == Step(c, [])
    ensures parsed.Some? && parsed.value > 0 ==>
              r == CartContext.AddToCart(c, user, Some(food), parsed.value, reply, fallbackId, now)
  {
    if parsed.None? || parsed.value <= 0 then Step(c, [])
    else CartContext.AddToCart(c, user, Some(food), parsed.value, reply, fallbackId, now)
  }
}

=== FILE: home_page.dfy ===
/** The home page: food list, category filter and name search. Each handler
    is one step; when a handler's own fetch is followed by the fetch of the
    `selectedCategory` effect, the two responses are applied in the order
    the requests were sent. */
module HomePage {
  import opened Common
  import opened Domain

  datatype Category = Category(id: int, name: string)

  /** The page state: the list shown, the selected category, the committed
      search text, the text in the search box, and the loading flag. */
  datatype Home = Home(foods: seq<Food>, selected: Option<Category>, searchText: string,
                       tempSearchText: string, loading: bool)

  const Initial: Home := Home([], None, "", "", false)

  /** `descriptionToShow(description, maxLength)`: short enough texts are
      shown whole; longer ones are cut to `maxLength` characters (none when
      `maxLength` is negative, as `substring` clamps) followed by "...". */
  function DescriptionToShow(description: string, maxLength: int): (r: string)
    ensures |description| <= maxLength ==> r == description
    ensures |description| > maxLength && maxLength >= 0 ==>
              |r| == maxLength + 3 && r[..maxLength] == description[..maxLength] && r[maxLength..] == "..."
    ensures |description| > maxLength && maxLength < 0 ==> r == "..."
    ensures var k := if |description| <= maxLength then |description| else if maxLength < 0 then 0 else maxLength;
            k <= |r| && r[..k] == description[..k]
  {
    if |description| <= maxLength then description
    else
      var cut := if maxLength < 0 then 0 else maxLength;
      description[..cut] + "..."
  }

  /** The `foodId` route parameter a food card passes to the detail screen. */
  function CardRoute(food: Food): (foodId: Option<int>)
    ensures foodId.Some? && foodId.value == food.id
  {
    Some(food.id)
  }

  /** `fetchFoods`'s endpoint: a non-empty search wins, then a category,
      then the full list. */
  function ChooseEndpoint(category: Option<Category>, searchQuery: string): (e: Endpoint)
    ensures e.SearchByName? <==> searchQuery != ""
    ensures e.SearchByName? ==> e.foodName == searchQuery
    ensures e.ByCategory? <==> searchQuery == "" && category.Some?
    ensures e.ByCategory? ==> e.categoryId == category.value.id
    ensures e == AllFoods <==> searchQuery == "" && category.None?
  {
    if searchQuery != "" then SearchByName(searchQuery)
    else if category.Some? then ByCategory(category.value.id)
    else AllFoods
  }

  /** The list a food response yields: a bare array as it is, otherwise the
      `foods` field, otherwise nothing; a throw also yields nothing. */
  function NormalizeFoods(reply: FoodsReply): (foods: seq<Food>)
    ensures reply.Threw? ==> foods == []
    ensures reply.Body? && reply.payload.ArrayPayload? ==> foods == reply.payload.items
    ensures reply.Body? && reply.payload.ObjectPayload? ==> foods == reply.payload.foods.GetOr([])
  {
    match reply
    case Threw => []
    case Body(ArrayPayload(items)) => items
    case Body(ObjectPayload(fs)) => fs.GetOr([])
  }

  /** `fetchFoods(category, searchQuery)`: one request to the chosen
      endpoint; the normalised response replaces the list; loading ends off;
      the filter fields are not touched. */
  function FetchFoodsStep(h: Home, category: Option<Category>, searchQuery: string, reply: FoodsReply): (r: Step<Home>)
    ensures r.requests == [FetchFoods(ChooseEndpoint(category, searchQuery))]
    ensures r.state == h.(foods := NormalizeFoods(reply), loading := false)
  {
    Step(h.(foods := NormalizeFoods(reply), loading := false),
         [FetchFoods(ChooseEndpoint(category, searchQuery))])
  }

  /** The mount effect: nothing is selected or searched yet, so all foods. */
  function Mount(reply: FoodsReply): (r: Step<Home>)
    ensures r.requests == [FetchFoods(AllFoods)]
    ensures r.state.selected.None? && r.state.searchText == ""
    ensures r.state == Initial.(foods := NormalizeFoods(reply))
  {
    FetchFoodsStep(Initial, None, "", reply)
  }

  /** Typing in the search box changes only the box's text. */
  function TypeSearch(h: Home, text: string): (r: Home)
    ensures r.tempSearchText == text
    ensures r.(tempSearchText := h.tempSearchText) == h
  {
    h.(tempSearchText := text)
  }

  /** `searchFoods()`: commits the typed text, clears the category and
      fetches with the typed text. */
  function SearchFoods(h: Home, reply: FoodsReply): (r: Step<Home>)
    ensures r.state.selected.None? && r.state.searchText == h.tempSearchText
    ensures r.requests == [FetchFoods(ChooseEndpoint(None, h.tempSearchText))]
    ensures r.state == h.(selected := None, searchText := h.tempSearchText,
                          foods := NormalizeFoods(reply), loading := false)
  {
    FetchFoodsStep(h.(selected := None, searchText := h.tempSearchText), None, h.tempSearchText, reply)
  }

  /** `handleReset()`: clears both texts and the category and fetches all foods. */
  function HandleReset(h: Home, reply: FoodsReply): (r: Step<Home>)
    ensures r.state.selected.None? && r.state.searchText == "" && r.state.tempSearchText == ""
    ensures r.requests == [FetchFoods(AllFoods)]
    ensures r.state == h.(selected := None, searchText := "", tempSearchText := "",
                          foods := NormalizeFoods(reply), loading := false)
  {
    FetchFoodsStep(h.(selected := None, searchText := "", tempSearchText := ""), None, "", reply)
  }

  /** `handleCategorySelect(category)` as written: it selects the category and
      clears the search text, but its own `fetchFoods(category)` takes the
      search query from the render it was created in, so it still sees the
      previous search text. When the selection changed, the effect on
      `selectedCategory` then fetches the category with the cleared text.
      `reply` answers the handler's fetch, `effectReply` the effect's. */
  function HandleCategorySelect(h: Home, category: Category, reply: FoodsReply, effectReply: FoodsReply): (r: Step<Home>)
    ensures r.state.selected == Some(category) && r.state.searchText == ""
    ensures |r.requests| >= 1 && r.requests[0] == FetchFoods(ChooseEndpoint(Some(category), h.searchText))
    ensures h.selected != Some(category) ==>
              r.requests == [r.requests[0], FetchFoods(ByCategory(category.id))] &&
              r.state.foods == NormalizeFoods(effectReply)
    ensures h.selected == Some(category) ==> |r.requests| == 1 && r.state.foods == NormalizeFoods(reply)
    ensures r.state.tempSearchText == h.tempSearchText && !r.state.loading
  {
    var selectedNow := h.(selected := Some(category), searchText := "");
    var own := FetchFoodsStep(selectedNow, Some(category), h.searchText, reply);
    if h.selected != Some(category) then
      var effect := FetchFoodsStep(own.state, Some(category), "", effectReply);
      Step(effect.state, own.requests + effect.requests)
    else own
  }

  /** The category selection with the fetch it evidently intends: the
      category's own foods, with the search text it has just cleared. */
  function HandleCategorySelectFixed(h: Home, category: Category, reply: FoodsReply, effectReply: FoodsReply): (r: Step<Home>)
    ensures r.state.selected == Some(category) && r.state.searchText == ""
    ensures forall i :: 0 <= i < |r.requests| ==> r.requests[i] == FetchFoods(ByCategory(category.id))
    ensures h.selected != Some(category) ==> r.state.foods == NormalizeFoods(effectReply)
    ensures h.selected == Some(category) ==> r.state.foods == NormalizeFoods(reply) && |r.requests| == 1
    ensures h.selected != Some(category) ==>
              r.requests == [FetchFoods(ByCategory(category.id)), FetchFoods(ByCategory(category.id))]
    ensures r.state.tempSearchText == h.tempSearchText && !r.state.loading
  {
    var selectedNow := h.(selected := Some(category), searchText := "");
    var own := FetchFoodsStep(selectedNow, Some(category), "", reply);
    if h.selected != Some(category) then
      var effect := FetchFoodsStep(own.state, Some(category), "", effectReply);
      Step(effect.state, own.requests + effect.requests)
    else own
  }

  /** The page never has a category selected while a search is committed. */
  predicate Consistent(h: Home) {
    h.selected.Some? ==> h.searchText == ""
  }

  /** Every handler keeps the page consistent. */
  lemma HandlersKeepConsistent(h: Home, category: Category, text: string, reply: FoodsReply, effectReply: FoodsReply)
    requires Consistent(h)
    ensures Consistent(Mount(reply).state)
    ensures Consistent(TypeSearch(h, text))
    ensures Consistent(SearchFoods(h, reply).state)
    ensures Consistent(HandleReset(h, reply).state)
    ensures Consistent(HandleCategorySelect(h, category, reply, effectReply).state)
    ensures Consistent(HandleCategorySelectFixed(h, category, reply, effectReply).state)
  {
  }

  /** The discrepancy: type "pizza", search, then pick a category. The
      category handler's own request is a name search for "pizza", not the
      category's foods. */
  lemma CategoryAfterSearchSendsStaleSearch(category: Category, r1: FoodsReply, r2: FoodsReply, r3: FoodsReply)
    ensures var searched := SearchFoods(TypeSearch(Initial, "pizza"), r1).state;
            HandleCategorySelect(searched, category, r2, r3).requests[0] == FetchFoods(SearchByName("pizza"))
  {
  }
}

=== FILE: order_context.dfy ===
/** The React order context: the signed-in customer's order list. */
module OrderContext {
  import opened Common
  import opened Domain

  /** The provider's state; it starts as an empty list that is loading. */
  datatype OrderCtx = OrderCtx(orders: seq<Order>, loading: bool)

  /** `fetchOrders()`: the token comes from the stored `jwtToken`, not from
      the user record. Without a user or a stored token the list is emptied
      without a request; otherwise one fetch whose orders replace the list
      wholesale, and any failure empties it. Loading always ends off. */
  function FetchOrders(o: OrderCtx, user: Option<User>, storedToken: string,
                       reply: Outcome<seq<Order>>): (r: Step<OrderCtx>)
    ensures !r.state.loading
    ensures user.None? || storedToken == "" ==> r == Step(OrderCtx([], false), [])
    ensures user.Some? && storedToken != "" ==>
              r.requests == [FetchUserOrders(user.value.id, Bearer(storedToken))]
    ensures user.Some? && storedToken != "" && reply.Success? ==> r.state.orders == reply.payload
    ensures user.Some? && storedToken != "" && !reply.Success? ==> r.state.orders == []
  {
    if user.None? || storedToken == "" then Step(OrderCtx([], false), [])
    else
      var orders := if reply.Success? then reply.payload else [];
      Step(OrderCtx(orders, false), [FetchUserOrders(user.value.id, Bearer(storedToken))])
  }

  /** A refresh keeps nothing of the list it replaces. */
  lemma FetchOrdersForgetsPrevious(o1: OrderCtx, o2: OrderCtx, user: Option<User>, storedToken: string,
                                   reply: Outcome<seq<Order>>)
    ensures FetchOrders(o1, user, storedToken, reply) == FetchOrders(o2, user, storedToken, reply)
  {
  }

  /** `refreshOrders()`: awaits one `fetchOrders()` and nothing else. */
  function RefreshOrders(o: OrderCtx, user: Option<User>, storedToken: string,
                         reply: Outcome<seq<Order>>): (r: Step<OrderCtx>)
    ensures r == FetchOrders(o, user, storedToken, reply)
  {
    FetchOrders(o, user, storedToken, reply)
  }

  /** `addOrder(order)`: appends one order after the existing ones. */
  function AddOrder(o: OrderCtx, order: Order): (r: OrderCtx)
    ensures |r.orders| == |o.orders| + 1
    ensures r.orders[..|o.orders|] == o.orders && r.orders[|o.orders|] == order
    ensures r.loading == o.loading
  {
    o.(orders := o.orders + [order])
  }

  /** The effect that refetches whenever the signed-in user changes: signing
      out clears the list. */
  function OnUserChange(o: OrderCtx, user: Option<User>, storedToken: string,
                        reply: Outcome<seq<Order>>): (r: Step<OrderCtx>)
    ensures r == FetchOrders(OrderCtx([], false), user, storedToken, reply)
    ensures user.None? ==> r.state.orders == [] && r.requests == []
  {
    FetchOrders(o, user, storedToken, reply)
  }
}

=== FILE: orders_screen.dfy ===
/** The customer's order list screen: what it shows for an empty list, the
    order it sorts cards in, and the figures each card derives. */
module OrdersScreen {
  import opened Common
  import opened Domain
  import CartScreen

  /** Newest first: order times never increase along the list. */
  predicate SortedByTimeDesc(s: seq<Order>) {
    forall i, j :: 0 <= i < j < |s| ==> s[i].orderTime >= s[j].orderTime
  }

  /** Places `o` before the first order that is not newer than it. */
  function Insert(o: Order, s: seq<Order>): (r: seq<Order>)
    requires SortedByTimeDesc(s)
    ensures SortedByTimeDesc(r)
    ensures multiset(r) == multiset(s) + multiset{o}
    ensures |r| == |s| + 1
    ensures r[0] == o || (s != [] && r[0] == s[0])
  {
    if s == [] then [o]
    else if o.orderTime >= s[0].orderTime then [o] + s
    else
      assert s == [s[0]] + s[1..];
      [s[0]] + Insert(o, s[1..])
  }

  /** The comparator `Number(b.orderTime) - Number(a.orderTime)` as a stable
      sort: newest first, orders with equal times in their original order. */
  function SortByTimeDesc(orders: seq<Order>): (r: seq<Order>)
    ensures SortedByTimeDesc(r)
    ensures multiset(r) == multiset(orders)
    ensures |r| == |orders|
  {
    if orders == [] then []
    else
      assert orders == [orders[0]] + orders[1..];
      Insert(orders[0], SortByTimeDesc(orders[1..]))
  }

  /** What the screen renders. */
  datatype OrdersView = Spinner | NoOrdersFound | OrderCards(cards: seq<Order>)

  /** The screen body: a spinner while the first load runs, the empty notice
      for a missing or empty list, otherwise the orders newest first. */
  function View(loading: bool, isFirstLoad: bool, orders: Option<seq<Order>>): (v: OrdersView)
    ensures loading && isFirstLoad ==> v == Spinner
    ensures !(loading && isFirstLoad) && (orders.None? || orders.value == []) ==> v == NoOrdersFound
    ensures !(loading && isFirstLoad) && orders.Some? && orders.value != [] ==> v.OrderCards?
    ensures v.OrderCards? ==> v.cards == SortByTimeDesc(orders.value)
    ensures v.OrderCards? ==>
              orders.Some? && orders.value != [] &&
              SortedByTimeDesc(v.cards) && multiset(v.cards) == multiset(orders.value)
  {
    if loading && isFirstLoad then Spinner
    else if orders.None? || orders.value == [] then NoOrdersFound
    else OrderCards(SortByTimeDesc(orders.value))
  }

  /** A card's total price; `None` where the card renders nothing (no food).
      A missing quantity counts as 0. */
  function OrderTotal(o: Order): (total: Option<int>)
    ensures o.food.None? <==> total.None?
    ensures o.food.Some? && o.quantity.None? ==> total == Some(0)
    ensures o.food.Some? && o.quantity.Some? ==> total == Some(o.food.value.price * o.quantity.value)
  {
    match o.food
    case None => None
    case Some(f) => Some(f.price * o.quantity.GetOr(0))
  }

  /** An order card and the cart screen price a food and a quantity alike:
      the card's total is the cart total of the one-line cart holding that
      food and quantity. */
  lemma OrderTotalIsCartTotal(o: Order)
    requires o.food.Some?
    ensures OrderTotal(o) == Some(CartScreen.Total([CartLine(o.food.value.id, o.food.value,
                                                             o.quantity.GetOr(0), 0, None)]))
  {
    CartScreen.TotalBasics(CartLine(o.food.value.id, o.food.value, o.quantity.GetOr(0), 0, None));
  }

  /** The order time as shown: 'Unknown' for a missing or zero epoch,
      otherwise the epoch in the device's locale (left abstract). */
  datatype DateText = Unknown | Localized(epoch: int)

  function FormatDateFromEpoch(epoch: Option<int>): (t: DateText)
    ensures t == Unknown <==> epoch.None? || epoch.value == 0
    ensures t.Localized? ==> t.epoch == epoch.value
  {
    if epoch.None? || epoch.value == 0 then Unknown else Localized(epoch.value)
  }
}

=== FILE: seqs.dfy ===
/** Sequence helpers that stand for JavaScript's `Array.prototype.filter`
    and `Array.prototype.findIndex`. */
module Seqs {
  import opened Common

  /** The elements of `s` that satisfy `keep`, in their original order. */
  function Filter<T>(s: seq<T>, keep: T -> bool): (r: seq<T>)
    ensures |r| <= |s|
    ensures forall i :: 0 <= i < |r| ==> keep(r[i])
    ensures forall i :: 0 <= i < |r| ==> r[i] in s
    ensures forall i :: 0 <= i < |s| && keep(s[i]) ==> s[i] in r
    ensures multiset(r) <= multiset(s)
  {
    if s == [] then []
    else
      assert s == [s[0]] + s[1..];
      if keep(s[0]) then [s[0]] + Filter(s[1..], keep)
      else Filter(s[1..], keep)
  }

  /** Filtering distributes over concatenation: the relative order of the
      kept elements is exactly their order in the input. */
  lemma {:induction false} FilterConcat<T>(a: seq<T>, b: seq<T>, keep: T -> bool)
    ensures Filter(a + b, keep) == Filter(a, keep) + Filter(b, keep)
  {
    if a == [] {
      assert a + b == b;
    } else {
      assert (a + b)[0] == a[0];
      assert (a + b)[1..] == a[1..] + b;
      FilterConcat(a[1..], b, keep);
    }
  }

  /** One unfolding of `Filter`: the head is kept exactly when it satisfies `keep`. */
  lemma FilterCons<T>(s: seq<T>, keep: T -> bool)
    requires s != []
    ensures Filter(s, keep) == (if keep(s[0]) then [s[0]] else []) + Filter(s[1..], keep)
  {
  }

  /** A sequence whose every element is kept is left as it is. */
  lemma {:induction false} FilterKeepsAll<T>(s: seq<T>, keep: T -> bool)
    requires forall i :: 0 <= i < |s| ==> keep(s[i])
    ensures Filter(s, keep) == s
  {
    if s != [] {
      FilterKeepsAll(s[1..], keep);
    }
  }

  /** Filtering twice by the same predicate is filtering once. */
  lemma FilterIdempotent<T>(s: seq<T>, keep: T -> bool)
    ensures Filter(Filter(s, keep), keep) == Filter(s, keep)
  {
    FilterKeepsAll(Filter(s, keep), keep);
  }

  /** The index of the first element of `s` that satisfies `p`, if any. */
  function FirstIndex<T>(s: seq<T>, p: T -> bool): (r: Option<nat>)
    ensures r.Some? ==> r.value < |s| && p(s[r.value])
    ensures r.Some? ==> forall j :: 0 <= j < r.value ==> !p(s[j])
    ensures r.None? <==> forall j :: 0 <= j < |s| ==> !p(s[j])
  {
    if s == [] then None
    else if p(s[0]) then Some(0)
    else
      match FirstIndex(s[1..], p)
      case None => None
      case Some(k) => Some(k + 1)
  }
}
